=== FILE: README.md ===
# utils.py helpers in Dafny

A model of the helper module `utils.py` of a crawler toolkit. It covers:

- the string helpers `extract_domain`, `encoding_url` and `isblank`;
- the line parser of `load_dotenv`, as a pure function from the environment and the lines of the file to the new environment;
- the retry policies of `http_get` and `http_post`.

The URL preparation of `http_get` is modelled exactly:
- the `urlencode` query string, with the default `quote_plus` and UTF-8 percent-encoding;
- the `?`/`&` append;
- the proxy split.

The rest of the system enters as parameters:
- the `isurl` validator and the punycode codec are function-valued fields of `HttpGet.Collaborators`;
- the network is a script `Net.Network` from the global attempt index to an `Outcome`: a response, an `HTTPError`, a `URLError` or any other exception.

Modules:

- `Wrappers`: `Option`.
- `Text`: the Python string primitives the helpers use:
  - `str.isspace` (the exact code points) and `str.strip`;
  - `str.find` with a start index, and `in`.
- `Domain`: `extract_domain`.
- `IdnaUrl`: `encoding_url`, which includes:
  - the `re.findall` of maximal runs of U+4E00..U+9FA5;
  - the first-occurrence splicing, with Python's slice semantics;
  - a positional reference definition.
- `Blank`: `isblank` over a small model of Python values.
- `DotEnv`: the `.env` line parser and the loop over lines.
- `Query`: `quote_plus`, `urlencode`, the query append and the proxy split.
- `Net`: attempt outcomes and the scripted network.
- `HttpGet`, `HttpPost`: the two retry policies, each with a recursive model and a loop form.

`http_get`'s retry is modelled as written, and the fault this exposes is recorded under "## Findings".

The punycode codec is left abstract. `IdnaUrl.EncodesToBaseDigits` records the one thing the proofs assume about it: a non-empty run of CJK ideographs encodes to base-36 digits (`a`-`z`, `0`-`9`) alone. That is what RFC 3492 encoding produces for text with no basic code points, since there is nothing to copy before a `-` delimiter. Nothing is assumed about the encoding of other strings.

Three consequences of the code that are easy to miss:

- `encoding_url` matches only U+4E00..U+9FA5, so in `http://例え.jp/path` only `例` is encoded and the hiragana `え` (U+3048) stays as it is (`IdnaUrl.HiraganaKept`).
- `http_post` demands exactly `dict` (`type(params) != dict`), so an instance of a `dict` subclass is rejected (`HttpPost.HttpPost`). `http_get` uses `isinstance`, so it accepts subclasses (`HttpGet.QueryItems`).
- In `encoding_url`, first-occurrence splicing always lands on the run's own position, even when a CJK substring repeats: every earlier run has already been replaced by CJK-free text (`IdnaUrl.EncodingIsPositional`).

## Model

| member | source | states |
|---|---|---|
| Text.Strip | utils.py:170 | `str.strip`: the result is the slice left after the leading and the trailing whitespace is removed. Its ends are not whitespace, and it is empty exactly when the input is all whitespace |
| Text.Find | utils.py:152-158 | `str.find(sub, start)`: either -1 with no occurrence at or after `start`, or the first such occurrence |
| Text.FindChar | utils.py:203-205 | searching for one character gives -1 exactly when the character is absent; otherwise it gives the index of its first occurrence |
| Text.IsSpace | utils.py:170 | the characters `str.isspace` accepts and `str.strip` removes: U+0009..U+000D, U+001C..U+0020, U+0085, U+00A0, U+1680, U+2000..U+200A, U+2028, U+2029, U+202F, U+205F and U+3000 |
| Text.Contains | utils.py:88 | Python's `sub in s`: `sub` occurs at some index of `s` |
| Text.ContainsFind | utils.py:88 | `sub in s` holds exactly when `s.find(sub)` is not -1 |
| Text.StartsWith | utils.py:60-64 | Python's `s.startswith(p)`: `p` is a prefix of `s` |
| Domain.ExtractDomain | utils.py:148-163 | `""` for `""`. With the protocol the result is a prefix of the URL; without it, the result contains no `/` |
| Domain.HostIsSuffix | utils.py:160-163 | the bare host is the tail of the with-protocol result |
| Domain.WithoutSeparator | utils.py:152-158 | with no `//` in the URL, the scan starts at 0. Both forms give the prefix before the first `/`, or the whole URL when there is none |
| Domain.WithSeparator | utils.py:152-163 | with the first `//` at `i`, the host is the `/`-free text from `i+2` up to the next `/` or the end. The protocol form is everything up to the host's end |
| Domain.HostBetween | utils.py:152-163 | the host is fixed by the first `//` and the next `/`, and so is the protocol form |
| Domain.SchemeHostPath | utils.py:148-163 | `scheme//host` followed by an empty or `/`-led path gives `host`, or `scheme//host` with the protocol |
| IdnaUrl.Runs | utils.py:173-175 | the runs found are non-empty and all CJK, and none are found exactly when the URL has no CJK |
| IdnaUrl.IsCjk | utils.py:173 | the character class `[\u4e00-\u9fa5]` |
| IdnaUrl.Label | utils.py:179 | the replacement of a run: `xn--` followed by the codec's encoding of the run |
| IdnaUrl.SpliceFirst | utils.py:184 | one step of the replacement loop: the text before the first occurrence of the run, the label, and the text after that occurrence, cut with Python's slice rules (so -1 from `find` would cut one character from the end) |
| IdnaUrl.SpliceAll | utils.py:183-184 | the replacement loop over the runs in the order `findall` returned them, each step working on the URL as rewritten so far |
| IdnaUrl.Positional | utils.py:166-186 | reference definition: each maximal run replaced by its label in place, every other character copied in order |
| IdnaUrl.EncodingUrl | utils.py:166-175 | `""` for `""`. A stripped URL without CJK is returned unchanged |
| IdnaUrl.PositionalIdentity | utils.py:174-175 | the in-place rewrite leaves CJK-free text unchanged |
| IdnaUrl.PositionalHasNoCjk | utils.py:178-186 | with a base-36 codec, the in-place rewrite leaves no CJK character |
| IdnaUrl.FindHitsOwnRun | utils.py:184 | when only CJK-free text precedes a run, `find` lands on that run's own position |
| IdnaUrl.SpliceAtOwnRun | utils.py:184 | splicing a label over a run's first occurrence replaces that run in place |
| IdnaUrl.SpliceAllFromPrefix | utils.py:183-184 | the splicing loop over the runs of `s`, after a CJK-free prefix, is the in-place rewrite of `s` |
| IdnaUrl.EncodingIsPositional | utils.py:166-186 | `encoding_url` equals the in-place rewrite of the stripped URL: each maximal run is replaced by its own label, and so repeated substrings cannot be spliced at the wrong place |
| IdnaUrl.PositionalInPlace | utils.py:183-184 | CJK-free text is copied, a maximal run becomes `xn--` plus its punycode, and the rest is rewritten the same way |
| IdnaUrl.PositionalKeepsStripped | utils.py:170-186 | the rewrite of a stripped URL is stripped, since labels contain no whitespace |
| IdnaUrl.EncodingHasNoCjk | utils.py:166-186 | the result contains no CJK and has no surrounding whitespace |
| IdnaUrl.EncodingFixes | utils.py:170-175 | a stripped, CJK-free URL is a fixed point |
| IdnaUrl.EncodingIdempotent | utils.py:166-186 | encoding twice is the same as encoding once |
| IdnaUrl.EncodingOneRun | utils.py:173-186 | a single run between CJK-free text is replaced by its label, and everything else is kept |
| IdnaUrl.HiraganaKept | utils.py:173 | in `http://例え.jp/path`, only `例` is encoded and `え` stays |
| Blank.IsBlank | utils.py:189-190 | blank exactly when the value is not a string holding at least one non-whitespace character. `None` and non-strings are always blank |
| Blank.BlankExamples | utils.py:189-190 | `""`, `"   "` and `None` are blank; `"x"` is not |
| DotEnv.ParseLine | utils.py:202-207 | a kept line, once stripped, is non-empty, does not start with `#` and contains `=`. The key and value are non-empty and stripped, and the key has no `=` |
| DotEnv.ParseLineSplit | utils.py:205-207 | the split is at the first `=`. Both halves are stripped, and the pair is kept exactly when both are non-empty |
| DotEnv.SkippedLines | utils.py:202-204 | empty lines, `#` comments and lines without `=` set nothing |
| DotEnv.LoadDotenvSnoc | utils.py:201-208 | one more line at the end applies its assignment to the environment already loaded |
| DotEnv.Assign | utils.py:207-208 | a kept line sets its key to its value. Every other variable keeps its value, no variable is removed, and a skipped line changes nothing |
| DotEnv.LoadDotenv | utils.py:201-208 | the loop over the lines in file order. A variable already in the environment stays present |
| DotEnv.LastValue | utils.py:201-208 | reference definition: the value of the last line of the file that sets the key, found by searching from the end |
| DotEnv.LoadDotenvLookup | utils.py:200-208 | after loading, a key holds the value from the last line that sets it. A key that no line sets keeps its previous value, or stays absent |
| DotEnv.ParseA1 | utils.py:205-208 | `A=1` sets `A` to `1` |
| DotEnv.ParseComment | utils.py:203-204 | `# comment` is skipped |
| DotEnv.ParseEmptyValue | utils.py:207 | `B=` is skipped because its value is empty |
| DotEnv.ParseEmptyKey | utils.py:207 | `=C` is skipped because its key is empty |
| DotEnv.ExampleFile | utils.py:200-208 | the lines `A=1`, `# comment`, `""`, `B=`, `=C` set only `A` |
| Query.Utf8 | utils.py:53 | UTF-8 as `quote_plus` encodes a character: the byte count of the RFC 3629 table (1 below U+0080, 2 below U+0800, 3 below U+10000, 4 above), a lead byte announcing that count, continuation bytes 0x80..0xBF after it, and the payload bits decode back to the character |
| Query.Utf8PrefixFree | utils.py:53 | one character's encoding is never a prefix of another's: equal byte strings that start with two encodings start with the same character and continue alike |
| Query.Utf8OfInjective | utils.py:53 | distinct strings have distinct UTF-8 bytes |
| Query.QuotePlus | utils.py:53 | `quote_plus` output uses only safe characters, `+` and `%`, and is never shorter than its input |
| Query.QuotePlusSafe | utils.py:53 | text made only of always-safe characters is not changed |
| Query.QuotePlusRoundTrip | utils.py:53 | undoing `quote_plus` gives back the UTF-8 bytes of the text |
| Query.QuotePlusInjective | utils.py:53 | distinct texts give distinct `quote_plus` output |
| Query.UrlEncode | utils.py:53 | the query string contains only quoted characters, `=` and `&`. For a non-empty mapping it is non-empty and contains `=` |
| Query.ParseQuery | utils.py:53 | reference decoder: split at every `&`, split each item at its first `=`, and undo `quote_plus` on both halves |
| Query.UrlEncodeParses | utils.py:53 | `urlencode` read back gives one pair per item, in item order, holding the UTF-8 bytes of the key and of the value: the text is the `&`-join of `quote_plus(k)=quote_plus(v)` |
| Query.UrlEncodeInjective | utils.py:53 | distinct item lists give distinct query strings |
| Query.AppendQuery | utils.py:54-57 | the URL is kept as a prefix and the data as the suffix. The separator is `&` exactly when the URL has a `?`, and `?` otherwise |
| Query.ProxyOf | utils.py:60-66 | a proxy is used exactly when the URL starts with `https://` or `http://`. The scheme is `https` exactly for the first of these, and scheme + `://` + host rebuilds the proxy URL |
| HttpGet.QueryItems | utils.py:52 | what `params and isinstance(params, dict)` lets through: the items of a `dict` or `dict` subclass, nothing for `None` or another type; an empty mapping gives no items |
| HttpGet.RequestUrl | utils.py:51-57 | the encoded URL is a prefix of the request URL. It is extended exactly when there are query items, and then it contains `?` and ends with the `urlencode` text after one separator |
| HttpGet.GetRetries | utils.py:88-112 | the outcomes after which `http_get` retries: an HTTP 503 whose body does not contain `token`, or an exception other than `HTTPError` and `URLError` |
| HttpGet.Get | utils.py:35-112 | an invalid URL or a budget <= 0 makes no attempt. At most `retry` attempts are made, every attempt but the last met a retryable outcome, and a non-empty body comes from a 200 response to the last attempt |
| HttpGet.HttpGet | utils.py:27-112 | `http_get` as written: an invalid URL or a budget <= 0 gives `""` with no attempt; otherwise between 1 and `retry` attempts are made |
| HttpGet.GetStopsWithoutRetry | utils.py:68-101 | a non-200 response, an HTTP error other than a 503 without `token`, or a URL error ends the call after one attempt. The body is returned only for a 200 |
| HttpGet.GetRetryStep | utils.py:88-112 | a retryable outcome is followed by a sleep and by the whole call again, on the URL just used and with one retry fewer |
| HttpGet.GetExhausts | utils.py:35-112 | when the validator accepts the URL and keeps accepting it as it is prepared again, and every outcome is retryable, exactly `retry` attempts are made and `""` is returned |
| HttpGet.GetResultOrigin | utils.py:75-81 | a non-empty result is the body of some attempt's 200 response |
| HttpGet.GetLoop | utils.py:35-112 | the loop that carries the URL and the budget between attempts computes what the recursion does |
| HttpGet.HttpGetLoop | utils.py:27-112 | the loop form of `http_get` equals the model of `http_get` |
| HttpGet.GetFirstAttempt | utils.py:51-68 | a call that passes validation first attempts the prepared URL |
| HttpGet.AppendKeepsPlain | utils.py:51-57 | appending a query to an encoded URL keeps it free of CJK and of surrounding whitespace |
| HttpGet.RetryUrlGrows | utils.py:51-57 | preparing the prepared URL again appends `&` and the query once more |
| HttpGet.GetSecondRequest | utils.py:88-112 | after a retryable first outcome, the second attempt asks for the first attempt's URL prepared again |
| HttpGet.GetSecondAttempt | utils.py:88-112 | with query items, and a validator that accepts the URL and the prepared URL, the second attempt's URL is the first one with the query appended again, so the two requests differ |
| HttpGet.GetFixedUrl | utils.py:88-112 | when preparation leaves the URL unchanged, every attempt requests that URL |
| HttpGet.IntendedSameUrl | utils.py:51-112 | in the corrected call, every attempt requests the URL prepared once |
| HttpGet.GetAgreesFromFixed | utils.py:88-112 | once the URL reaches an accepted fixed point of preparation, the call as written and the corrected call agree |
| HttpGet.AgreesWithoutItems | utils.py:51-112 | without query items, the call as written equals the corrected call |
| HttpGet.HttpGetIntended | utils.py:35-112 | the corrected call, which validates and prepares the URL once: an invalid URL or a budget <= 0 gives `""` with no attempt; otherwise between 1 and `retry` attempts are made |
| HttpPost.HttpPost | utils.py:121-145 | `retry <= 0` or a `params` that is not exactly a `dict` makes no attempt; otherwise at least one and at most `retry` attempts are made, and all but the last met a retryable outcome. Stopping early means the last was not retryable, and a response is returned exactly when the last attempt succeeded |
| HttpPost.PostRetries | utils.py:135-145 | the outcomes after which `http_post` retries: an HTTP error other than 401 and 404, or an exception other than `HTTPError` and `URLError` |
| HttpPost.PostStopsOnRejection | utils.py:135-143 | a 401 or 404, or a URL error, ends the call after one attempt with no response |
| HttpPost.PostExhausts | utils.py:135-145 | when every outcome is retryable, exactly `retry` attempts are made and there is no response |
| HttpPost.HttpPostLoop | utils.py:115-145 | the bounded loop with an attempt budget computes what the recursion does |

## Left out

- Network I/O, the TLS context, the timeouts and the default headers (`USER_AGENT`, `Accept`, `Content-Type`): the network is the scripted `Net.Network`, and a request is described by its URL and proxy alone.
- Decoding the response: the UTF-8 decode and the gzip fallback are outside the model. An `Ok` carries the text after decoding, and a failed decode of a response is one of the exceptions in `OtherErr`. An `HttpErr` carries the error body after decoding. An error body that is not valid UTF-8 reaches the retry test as `""`: the first read at utils.py:84 has consumed the stream, so the second read at utils.py:86 returns no bytes. Such a response is `HttpErr(code, "")`, and a 503 of that kind is retried even when its raw bytes contain `token`.
- The logger and `time.sleep`: a sleep appears as a `Sleep` event. The `interval` value and its clamp to >= 0 are left out because they only affect timing.
- `isurl` and the punycode codec are parameters, because their code is not part of this model. For the codec, only the base-36 encoding of CJK runs is assumed (`IdnaUrl.EncodesToBaseDigits`).
- `json.dumps` of the POST payload: the payload is the same on every attempt and its contents do not affect the retry policy. A serialisation failure is one of the `OtherErr` outcomes.
- `str()` of query keys and values: `Query.Params` holds them already converted to strings. `bytes` keys and values, which `urlencode` quotes as raw bytes without `str()` (so `{b"a": b"\xff"}` gives `a=%FF`), are not modelled.
- Lone surrogates in a query key or value: a Dafny `char` is a Unicode scalar value, so the `UnicodeEncodeError` that `quote_plus` raises for a surrogate code point is not modelled.
- The file handling of `load_dotenv` (path resolution, the existence and directory checks, `readlines`): the model starts from the lines. `os.environ` is the explicit map `DotEnv.Env`.
- `HttpPost.HttpPost`: returns the response as a status and a body, not the live handle the caller has to read and close.
- HttpGet.Get: an exception raised by `isurl`, or by the codec before the first request, is not modelled; preparation is total.
- HttpGet.Get: an error raised while reading the body of an `HTTPError` (utils.py:84-86), such as a read timeout, is raised inside the `except HTTPError` clause, so it escapes `http_get`. No `Outcome` expresses it.
- HttpGet.Get: Python's recursion limit is not modelled. The retries are recursive calls (utils.py:90, 105), so a budget near the limit with retryable outcomes ends in an escaping `RecursionError` rather than `""`.
- HttpPost.HttpPost: Python's recursion limit is not modelled. With a budget near the limit and retryable outcomes, the recursive retries (utils.py:140, 145) end in an escaping `RecursionError` rather than `None`.
- DotEnv.LoadDotenv: `os.environ[k] = v` (utils.py:208) raises `ValueError` for a key or value containing a NUL character, which aborts the remaining lines. The model always assigns.

## Findings

| source | as written | input that shows it | evidently intended | confidence | as-written member | corrected member |
|---|---|---|---|---|---|---|
| utils.py:90-112 | a retry passes the `url` already rewritten on lines 51-57 together with the same `params`, so each retry appends `&` and the query again | `http_get("https://example.com/x", params={"a": "1"}, retry=2)` where the first attempt ends in a 503 without `token`: it requests `https://example.com/x?a=1`, then `https://example.com/x?a=1&a=1` | every attempt requests the same URL, the one prepared once | not executed | HttpGet.GetSecondAttempt | HttpGet.IntendedSameUrl |

=== FILE: blank.dfy ===
/** `isblank`: a check that accepts any Python value. */
module Blank {
  import opened Text

  /** The argument as far as `isblank` can tell values apart: `None`, an
      object whose type is exactly `str`, or any other object together with
      its truth value. The test is `type(text) != str`, so an instance of a
      subclass of `str` is a `PyOther`. */
  datatype PyValue = PyNone | PyStr(s: string) | PyOther(truthy: bool)

  /** Python truthiness: `None`, `""` and falsy objects are false. */
  predicate Truthy(v: PyValue) {
    match v
    case PyNone => false
    case PyStr(s) => s != []
    case PyOther(t) => t
  }

  /** A value is blank when it is falsy, when it is not a string, or when
      stripping it leaves nothing: blank unless the value is a string with
      at least one non-whitespace character. */
  function IsBlank(v: PyValue): (b: bool)
    ensures b <==> !(v.PyStr? && exists i :: 0 <= i < |v.s| && !IsSpace(v.s[i]))
    ensures v.PyNone? || v.PyOther? ==> b
  {
    !Truthy(v) || !v.PyStr? || Strip(v.s) == []
  }

  /** `""`, `"   "` and `None` are blank; `"x"` is not. */
  lemma BlankExamples()
    ensures IsBlank(PyStr(""))
    ensures IsBlank(PyStr("   "))
    ensures IsBlank(PyNone)
    ensures !IsBlank(PyStr("x"))
  {
    assert !IsSpace("x"[0]);
  }

}

=== FILE: domain.dfy ===
/** `extract_domain`: the host (optionally with its scheme) sliced out of a
    URL by plain index arithmetic, with no validation of the URL. */
module Domain {
  import opened Text

  /** `extract_domain(url, include_protocal)`. The scheme separator `//` is
      looked up first; when it is missing the scan start is the sentinel -2,
      so the search for the terminating `/` begins at index 0. With the
      protocol the result is everything before the terminator, otherwise
      only the text between the separator and the terminator. */
  function ExtractDomain(url: string, includeProtocol: bool): (r: string)
    ensures url == [] ==> r == []
    ensures includeProtocol ==> r <= url
    ensures !includeProtocol ==> '/' !in r
  {
    if url == [] then []
    else
      var found := Find(url, "//", 0);
      var start := if found == -1 then -2 else found;
      var slash := Find(url, "/", start + 2);
      var end := if slash == -1 then |url| else slash;
      NoSlashBefore(url, start + 2, end);
      if includeProtocol then url[..end] else url[start + 2..end]
  }

  /** Between `from` and the first `/` at or after it there is no `/`. */
  lemma NoSlashBefore(url: string, from: nat, end: int)
    requires from <= |url|
    requires var slash := Find(url, "/", from);
      end == (if slash == -1 then |url| else slash)
    ensures from <= end <= |url|
    ensures '/' !in url[from..end]
    ensures end < |url| ==> url[end] == '/'
  {
    var slash := Find(url, "/", from);
    forall k | from <= k < end ensures url[k] != '/' {
      assert !OccursAt(url, "/", k);
      assert url[k..k + 1] == [url[k]];
    }
    if slash != -1 {
      assert url[slash..slash + 1] == "/";
    }
  }

  /** The host form is the tail of the with-protocol form. */
  lemma HostIsSuffix(url: string)
    ensures var full := ExtractDomain(url, true);
      var host := ExtractDomain(url, false);
      |host| <= |full| && full[|full| - |host|..] == host
  {
  }

  /** With no `//` in the URL both forms coincide and are the text before
      the first `/` (or the whole URL when it has none). */
  lemma WithoutSeparator(url: string, includeProtocol: bool)
    requires forall i :: !OccursAt(url, "//", i)
    ensures var r := ExtractDomain(url, includeProtocol);
      && r <= url && '/' !in r
      && (|r| == |url| || url[|r|] == '/')
  {
    if url != [] {
      assert Find(url, "//", 0) == -1;
      var slash := Find(url, "/", 0);
      NoSlashBefore(url, 0, if slash == -1 then |url| else slash);
    }
  }

  /** When the first `//` is at `i`, the host is what follows it up to the
      next `/` (or the end), and the with-protocol form is everything up to
      and including the host. */
  lemma WithSeparator(url: string, i: nat)
    requires OccursAt(url, "//", i)
    requires forall j :: 0 <= j < i ==> !OccursAt(url, "//", j)
    ensures var host := ExtractDomain(url, false);
      && i + 2 + |host| <= |url|
      && url[i + 2..i + 2 + |host|] == host
      && '/' !in host
      && (i + 2 + |host| == |url| || url[i + 2 + |host|] == '/')
      && ExtractDomain(url, true) == url[..i + 2 + |host|]
  {
    assert Find(url, "//", 0) == i;
    var slash := Find(url, "/", i + 2);
    NoSlashBefore(url, i + 2, if slash == -1 then |url| else slash);
  }

  /** The host is determined by the first `//` and the next `/` after it. */
  lemma HostBetween(url: string, i: nat, e: nat)
    requires OccursAt(url, "//", i)
    requires forall j :: 0 <= j < i ==> !OccursAt(url, "//", j)
    requires i + 2 <= e <= |url| && '/' !in url[i + 2..e]
    requires e == |url| || url[e] == '/'
    ensures ExtractDomain(url, false) == url[i + 2..e]
    ensures ExtractDomain(url, true) == url[..e]
  {
    WithSeparator(url, i);
  }

  /** A URL laid out as `scheme//host` followed by nothing or by a path
      starting with `/` yields `host`, and `scheme//host` with the protocol
      (for instance `https://host.example.com/a/b`). */
  lemma SchemeHostPath(scheme: string, host: string, rest: string)
    requires '/' !in scheme && '/' !in host
    requires rest == [] || rest[0] == '/'
    ensures ExtractDomain(scheme + "//" + host + rest, false) == host
    ensures ExtractDomain(scheme + "//" + host + rest, true) == scheme + "//" + host
  {
    var url := scheme + "//" + host + rest;
    var i := |scheme|;
    var e := i + 2 + |host|;
    assert url[i..i + 2] == "//";
    forall j | 0 <= j < i ensures !OccursAt(url, "//", j) {
      assert url[j] == scheme[j];
    }
    assert url[i + 2..e] == host;
    assert url[..e] == scheme + "//" + host;
    if e < |url| {
      assert url[e] == rest[0];
    }
    HostBetween(url, i, e);
  }

}

=== FILE: dotenv.dfy ===
/**
 * The line parser of `load_dotenv`. The process environment is an explicit
 * map and the file is given as its sequence of lines.
 */
module DotEnv {
  import opened Text
  import opened Wrappers

  type Env = map<string, string>

  /** One line of the file. The stripped line is skipped when it is empty,
      starts with `#` or has no `=`; otherwise it is split at its first `=`,
      both halves are stripped, and the pair is kept only when neither half
      is empty. */
  function ParseLine(line: string): (r: Option<(string, string)>)
    ensures r.Some? ==> var c := Strip(line); c != [] && c[0] != '#' && '=' in c
    ensures r.Some? ==> r.value.0 != [] && r.value.1 != []
    ensures r.Some? ==> IsStripped(r.value.0) && IsStripped(r.value.1) && '=' !in r.value.0
  {
    var c := Strip(line);
    var i := Find(c, "=", 0);
    FindChar(c, '=');
    if c == [] || c[0] == '#' || i == -1 then None
    else
      var k := Strip(c[..i]);
      var v := Strip(c[i + 1..]);
      StripKeepsOut(c[..i], '=');
      if k != [] && v != [] then Some((k, v)) else None
  }

  /** Stripping only removes characters. */
  lemma StripKeepsOut(s: string, ch: char)
    requires ch !in s
    ensures ch !in Strip(s)
  {
    var r := Strip(s);
    var i := LeadingSpace(s);
    forall j | 0 <= j < |r| ensures r[j] != ch {
      assert r[j] == s[i + j];
    }
  }

  /** The split is at the first `=`: for a stripped line `a=b` with no `=`
      in `a` and not starting with `#`, the key is `a` stripped and the
      value is `b` stripped, whatever `b` contains. */
  lemma ParseLineSplit(line: string, a: string, b: string)
    requires Strip(line) == a + "=" + b
    requires '=' !in a
    requires (a + "=" + b)[0] != '#'
    ensures ParseLine(line) ==
      if Strip(a) != [] && Strip(b) != [] then Some((Strip(a), Strip(b))) else None
  {
    var c := Strip(line);
    FindChar(c, '=');
    var i := Find(c, "=", 0);
    assert c[|a|] == '=';
    assert i == |a|;
    assert c[..i] == a;
    assert c[i + 1..] == b;
  }

  /** Lines that are blank, comments, or have no `=` are skipped. */
  lemma SkippedLines(line: string)
    requires var c := Strip(line); c == [] || c[0] == '#' || '=' !in c
    ensures ParseLine(line) == None
  {
  }

  /** One iteration of the loop: `os.environ[k] = v` for a kept line. The
      key of a kept line gets its value; every other variable keeps its
      value, and nothing is removed. */
  function Assign(env: Env, line: string): (r: Env)
    ensures ParseLine(line).None? ==> r == env
    ensures ParseLine(line).Some? ==>
      ParseLine(line).value.0 in r && r[ParseLine(line).value.0] == ParseLine(line).value.1
    ensures forall k :: k in env ==> k in r
    ensures forall k :: k in r && k !in env ==> ParseLine(line).Some? && ParseLine(line).value.0 == k
    ensures forall k :: k in env && (ParseLine(line).None? || ParseLine(line).value.0 != k) ==>
      r[k] == env[k]
  {
    match ParseLine(line)
    case Some((k, v)) => env[k := v]
    case None => env
  }

  /** The loop over the lines of the file, first to last. Loading only sets
      variables: every variable already present stays present. */
  function LoadDotenv(env: Env, lines: seq<string>): (r: Env)
    ensures forall k :: k in env ==> k in r
    decreases |lines|
  {
    if lines == [] then env else LoadDotenv(Assign(env, lines[0]), lines[1..])
  }

  function Get(env: Env, k: string): Option<string> {
    if k in env then Some(env[k]) else None
  }

  /** Reference definition: the value the last line that sets `k` gives
      it, searching from the end of the file. */
  function LastValue(lines: seq<string>, k: string): Option<string>
    decreases |lines|
  {
    if lines == [] then None
    else match ParseLine(lines[|lines| - 1])
      case Some((k', v)) => if k' == k then Some(v) else LastValue(lines[..|lines| - 1], k)
      case None => LastValue(lines[..|lines| - 1], k)
  }

  /** Processing one more line at the end. */
  lemma {:induction false} LoadDotenvSnoc(env: Env, lines: seq<string>, line: string)
    ensures LoadDotenv(env, lines + [line]) == Assign(LoadDotenv(env, lines), line)
    decreases |lines|
  {
    if lines == [] {
      assert lines + [line] == [line];
    } else {
      assert (lines + [line])[0] == lines[0];
      assert (lines + [line])[1..] == lines[1..] + [line];
      LoadDotenvSnoc(Assign(env, lines[0]), lines[1..], line);
    }
  }

  /** After loading, a key holds the value of the last line that sets it;
      later lines overwrite earlier ones, and a key no line sets keeps its
      previous value (or stays absent). */
  lemma {:induction false} LoadDotenvLookup(env: Env, lines: seq<string>, k: string)
    ensures Get(LoadDotenv(env, lines), k) ==
      if LastValue(lines, k).Some? then LastValue(lines, k) else Get(env, k)
    decreases |lines|
  {
    if lines != [] {
      var init := lines[..|lines| - 1];
      var last := lines[|lines| - 1];
      assert lines == init + [last];
      LoadDotenvSnoc(env, init, last);
      LoadDotenvLookup(env, init, k);
    }
  }

  lemma ParseA1()
    ensures ParseLine("A=1") == Some(("A", "1"))
  {
    StripStripped("A=1");
    StripStripped("A");
    StripStripped("1");
    assert "A=1" == "A" + "=" + "1";
    ParseLineSplit("A=1", "A", "1");
  }

  lemma ParseComment()
    ensures ParseLine("# comment") == None
  {
    StripStripped("# comment");
    SkippedLines("# comment");
  }

  lemma ParseEmptyValue()
    ensures ParseLine("B=") == None
  {
    StripStripped("B=");
    assert "B=" == "B" + "=" + "";
    ParseLineSplit("B=", "B", "");
  }

  lemma ParseEmptyKey()
    ensures ParseLine("=C") == None
  {
    StripStripped("=C");
    assert "=C" == "" + "=" + "C";
    ParseLineSplit("=C", "", "C");
  }

  /** A file of `A=1`, a comment, a blank line, `B=` (empty value) and
      `=C` (empty key) sets `A` alone. */
  lemma ExampleFile()
    ensures LoadDotenv(map[], ["A=1", "# comment", "", "B=", "=C"]) == map["A" := "1"]
  {
    var m := map["A" := "1"];
    ParseA1();
    LoadFirst(map[], "A=1", ["# comment", "", "B=", "=C"]);
    ParseComment();
    LoadFirst(m, "# comment", ["", "B=", "=C"]);
    SkippedLines("");
    LoadFirst(m, "", ["B=", "=C"]);
    ParseEmptyValue();
    LoadFirst(m, "B=", ["=C"]);
    ParseEmptyKey();
    LoadFirst(m, "=C", []);
  }

  lemma LoadFirst(env: Env, line: string, rest: seq<string>)
    ensures LoadDotenv(env, [line] + rest) == LoadDotenv(Assign(env, line), rest)
  {
    assert ([line] + rest)[1..] == rest;
  }

}

=== FILE: httpget.dfy ===
/**
 * The retry policy of `http_get`, with the URL handling that precedes every
 * attempt. URL validation and the punycode codec are parameters, and the
 * network is a scripted sequence of outcomes.
 */
module HttpGet {
  import opened Text
  import opened Wrappers
  import opened IdnaUrl
  import opened Query
  import opened Net

  /** The external collaborators: the `isurl` validator and the punycode
      codec. */
  datatype Collaborators = Collaborators(isUrl: string -> bool, punycode: string -> string)

  /** What one attempt asks `urlopen` for. */
  datatype Request = Request(url: string, proxy: Option<Proxy>)

  /** The observable steps of a call: an attempt, or `time.sleep(interval)`
      before a retry. */
  datatype Event = Attempt(request: Request) | Sleep

  /** The text returned (`""` on failure) and the steps taken. */
  datatype GetRun = GetRun(body: string, events: seq<Event>)

  function Attempts(events: seq<Event>): nat
    decreases |events|
  {
    if events == [] then 0
    else (if events[0].Attempt? then 1 else 0) + Attempts(events[1..])
  }

  lemma AttemptsRetry(req: Request, rest: seq<Event>)
    ensures Attempts([Attempt(req), Sleep] + rest) == 1 + Attempts(rest)
  {
    var e := [Attempt(req), Sleep] + rest;
    assert e[1..] == [Sleep] + rest;
    assert e[1..][1..] == rest;
  }

  /** The items `params and isinstance(params, dict)` lets through to the
      query string: those of a non-empty `dict` or `dict` subclass. */
  function QueryItems(params: Params): seq<(string, string)> {
    match params
    case Dict(entries) => entries
    case DictSubclass(items) => items
    case _ => []
  }

  /** The URL of the request (utils.py lines 51-57), encoded and, when
      there are query items, extended with them. */
  function RequestUrl(c: Collaborators, url: string, params: Params): (r: string)
    ensures EncodingUrl(url, c.punycode) <= r
    ensures QueryItems(params) != [] <==> |r| > |EncodingUrl(url, c.punycode)|
    ensures QueryItems(params) != [] ==>
      '?' in r && r[|EncodingUrl(url, c.punycode)| + 1..] == UrlEncode(QueryItems(params))
  {
    var e := EncodingUrl(url, c.punycode);
    var items := QueryItems(params);
    if items != [] then AppendQuery(e, UrlEncode(items)) else e
  }

  /** Outcomes after which `http_get` sleeps and tries again: a 503 whose
      body does not contain `token`, or an unexpected exception. */
  predicate GetRetries(o: Outcome) {
    (o.HttpErr? && o.code == 503 && !Contains(o.body, "token")) || o.OtherErr?
  }

  /** The body of `http_get`, with the URL preparation of utils.py lines
      51-57 as `prepare` and the attempts numbered from `n` on. Each retry
      hands the prepared URL back in, and the call prepares it again. */
  function Get(isUrl: string -> bool, prepare: string -> string, url: string, retry: int,
               proxy: string, network: Network, n: nat): (r: GetRun)
    ensures !isUrl(url) || retry <= 0 ==> r.events == [] && r.body == []
    ensures isUrl(url) && retry > 0 ==> Attempts(r.events) > 0
    ensures Attempts(r.events) <= if retry > 0 then retry else 0
    ensures forall j :: n <= j < n + Attempts(r.events) - 1 ==> GetRetries(network(j))
    ensures r.body != [] ==>
      Attempts(r.events) > 0 && network(n + Attempts(r.events) - 1) == Ok(200, r.body)
    decreases if retry > 0 then retry else 0
  {
    if !isUrl(url) then GetRun([], [])
    else if retry <= 0 then GetRun([], [])
    else
      var u := prepare(url);
      var req := Request(u, ProxyOf(proxy));
      match network(n)
      case Ok(status, body) =>
        GetRun(if status != 200 then [] else body, [Attempt(req)])
      case HttpErr(code, message) =>
        if code == 503 && !Contains(message, "token") then
          var rest := Get(isUrl, prepare, u, retry - 1, proxy, network, n + 1);
          AttemptsRetry(req, rest.events);
          GetRun(rest.body, [Attempt(req), Sleep] + rest.events)
        else GetRun([], [Attempt(req)])
      case UrlErr => GetRun([], [Attempt(req)])
      case OtherErr =>
        var rest := Get(isUrl, prepare, u, retry - 1, proxy, network, n + 1);
        AttemptsRetry(req, rest.events);
        GetRun(rest.body, [Attempt(req), Sleep] + rest.events)
  }

  /** The preparation `http_get` applies on every call. */
  function Prepare(c: Collaborators, params: Params): string -> string {
    u => RequestUrl(c, u, params)
  }

  /** `http_get(url, headers, params, retry, proxy, interval)` as written. */
  function HttpGet(c: Collaborators, url: string, params: Params, retry: int, proxy: string,
                   network: Network): (r: GetRun)
    ensures !c.isUrl(url) || retry <= 0 ==> r == GetRun([], [])
    ensures c.isUrl(url) && retry > 0 ==> 0 < Attempts(r.events) <= retry
  {
    Get(c.isUrl, Prepare(c, params), url, retry, proxy, network, 0)
  }

  /** A non-200 response, an HTTP error other than a retryable 503, or a URL
      error ends the call after its one attempt. */
  lemma GetStopsWithoutRetry(isUrl: string -> bool, prepare: string -> string, url: string, retry: int,
                             proxy: string, network: Network, n: nat)
    requires isUrl(url) && retry > 0
    requires !GetRetries(network(n))
    ensures var r := Get(isUrl, prepare, url, retry, proxy, network, n);
      && r.events == [Attempt(Request(prepare(url), ProxyOf(proxy)))]
      && r.body == (if network(n).Ok? && network(n).status == 200 then network(n).body else [])
  {
  }

  /** A retryable outcome is followed by a sleep and by the whole call again,
      on the URL this attempt used and with one retry fewer. */
  lemma GetRetryStep(isUrl: string -> bool, prepare: string -> string, url: string, retry: int,
                     proxy: string, network: Network, n: nat)
    requires isUrl(url) && retry > 0
    requires GetRetries(network(n))
    ensures var u := prepare(url);
      var rest := Get(isUrl, prepare, u, retry - 1, proxy, network, n + 1);
      Get(isUrl, prepare, url, retry, proxy, network, n)
        == GetRun(rest.body, [Attempt(Request(u, ProxyOf(proxy))), Sleep] + rest.events)
  {
  }

  /** When the validator accepts the URL and keeps accepting it as it is
      prepared again, and every attempt fails in a retryable way, the call
      makes exactly `retry` attempts and returns `""`. */
  lemma {:induction false} GetExhausts(isUrl: string -> bool, prepare: string -> string, url: string,
                                       retry: int, proxy: string, network: Network, n: nat)
    requires isUrl(url) && forall s :: isUrl(s) ==> isUrl(prepare(s))
    requires retry > 0
    requires forall j :: n <= j < n + retry ==> GetRetries(network(j))
    ensures var r := Get(isUrl, prepare, url, retry, proxy, network, n);
      Attempts(r.events) == retry && r.body == []
    decreases retry
  {
    assert GetRetries(network(n));
    var u := prepare(url);
    var rest := Get(isUrl, prepare, u, retry - 1, proxy, network, n + 1);
    AttemptsRetry(Request(u, ProxyOf(proxy)), rest.events);
    if retry > 1 {
      GetExhausts(isUrl, prepare, u, retry - 1, proxy, network, n + 1);
    } else {
      assert isUrl(u);
    }
  }

  /** Every attempt but the last met a retryable outcome, and a non-empty
      result is the body of a 200 response to the last attempt. */
  lemma GetResultOrigin(c: Collaborators, url: string, params: Params, retry: int, proxy: string,
                        network: Network)
    ensures var r := HttpGet(c, url, params, retry, proxy, network);
      r.body != [] ==> exists j :: 0 <= j < Attempts(r.events) && network(j) == Ok(200, r.body)
  {
    var r := HttpGet(c, url, params, retry, proxy, network);
    if r.body != [] {
      var j := Attempts(r.events) - 1;
      assert network(j) == Ok(200, r.body);
    }
  }

  /** The same policy as a loop that carries the URL and the remaining
      budget from one attempt to the next. */
  method GetLoop(isUrl: string -> bool, prepare: string -> string, url: string, retry: int,
                 proxy: string, network: Network) returns (body: string, events: seq<Event>)
    ensures GetRun(body, events) == Get(isUrl, prepare, url, retry, proxy, network, 0)
  {
    var current := url;
    var budget := retry;
    var n: nat := 0;
    events := [];
    while isUrl(current) && budget > 0
      invariant var rest := Get(isUrl, prepare, current, budget, proxy, network, n);
        Get(isUrl, prepare, url, retry, proxy, network, 0) == GetRun(rest.body, events + rest.events)
      decreases budget
    {
      var u := prepare(current);
      var req := Request(u, ProxyOf(proxy));
      var o := network(n);
      if !GetRetries(o) {
        GetStopsWithoutRetry(isUrl, prepare, current, budget, proxy, network, n);
        body := if o.Ok? && o.status == 200 then o.body else [];
        events := events + [Attempt(req)];
        return;
      }
      GetRetryStep(isUrl, prepare, current, budget, proxy, network, n);
      ghost var rest := Get(isUrl, prepare, u, budget - 1, proxy, network, n + 1);
      assert events + ([Attempt(req), Sleep] + rest.events)
        == (events + [Attempt(req), Sleep]) + rest.events;
      events := events + [Attempt(req), Sleep];
      current := u;
      budget := budget - 1;
      n := n + 1;
    }
    body := [];
  }

  /** `http_get` as a loop over the attempts. */
  method HttpGetLoop(c: Collaborators, url: string, params: Params, retry: int, proxy: string,
                     network: Network) returns (body: string, events: seq<Event>)
    ensures GetRun(body, events) == HttpGet(c, url, params, retry, proxy, network)
  {
    body, events := GetLoop(c.isUrl, Prepare(c, params), url, retry, proxy, network);
  }

  /** The first step of a call that passes validation is an attempt on the
      prepared URL. */
  lemma GetFirstAttempt(isUrl: string -> bool, prepare: string -> string, url: string, retry: int,
                        proxy: string, network: Network, n: nat)
    requires isUrl(url) && retry > 0
    ensures var r := Get(isUrl, prepare, url, retry, proxy, network, n);
      r.events != [] && r.events[0] == Attempt(Request(prepare(url), ProxyOf(proxy)))
  {
    if GetRetries(network(n)) {
      GetRetryStep(isUrl, prepare, url, retry, proxy, network, n);
    } else {
      GetStopsWithoutRetry(isUrl, prepare, url, retry, proxy, network, n);
    }
  }

  lemma QueryCharPlain(c: char)
    requires QueryChar(c) || c == '?'
    ensures !IsCjk(c) && !IsSpace(c)
  {
  }

  /** A URL with no CJK and no surrounding whitespace keeps both properties
      when a query is appended to it. */
  lemma AppendKeepsPlain(e: string, d: string)
    requires NoCjk(e) && IsStripped(e)
    requires QueryText(d) && d != []
    ensures NoCjk(AppendQuery(e, d)) && IsStripped(AppendQuery(e, d))
  {
    var u := AppendQuery(e, d);
    forall i | 0 <= i < |u|
      ensures !IsCjk(u[i])
    {
      if i < |e| {
        assert u[i] == e[i];
      } else if i == |e| {
        QueryCharPlain(u[i]);
      } else {
        assert u[i] == d[i - |e| - 1];
        QueryCharPlain(u[i]);
      }
    }
    QueryCharPlain(u[|u| - 1]);
    if e != [] {
      assert u[0] == e[0];
    } else {
      QueryCharPlain(u[0]);
    }
  }

  /** A prepared URL with query items, prepared again, gets the items a
      second time: the retries of utils.py lines 90-97 and 105-112 hand the
      extended URL back to a call that extends it once more. */
  lemma RetryUrlGrows(c: Collaborators, url: string, params: Params)
    requires EncodesToBaseDigits(c.punycode)
    requires QueryItems(params) != []
    ensures var u := RequestUrl(c, url, params);
      RequestUrl(c, u, params) == u + "&" + UrlEncode(QueryItems(params))
  {
    var e := EncodingUrl(url, c.punycode);
    var d := UrlEncode(QueryItems(params));
    var u := AppendQuery(e, d);
    EncodingHasNoCjk(url, c.punycode);
    AppendKeepsPlain(e, d);
    EncodingFixes(u, c.punycode);
  }

  /** After a retryable first outcome, the second attempt asks for the
      first attempt's URL prepared once more. */
  lemma GetSecondRequest(isUrl: string -> bool, prepare: string -> string, url: string, retry: int,
                         proxy: string, network: Network)
    requires retry >= 2
    requires GetRetries(network(0))
    requires isUrl(url) && isUrl(prepare(url))
    ensures var r := Get(isUrl, prepare, url, retry, proxy, network, 0);
      && |r.events| > 2
      && r.events[0] == Attempt(Request(prepare(url), ProxyOf(proxy)))
      && r.events[2] == Attempt(Request(prepare(prepare(url)), ProxyOf(proxy)))
  {
    GetRetryStep(isUrl, prepare, url, retry, proxy, network, 0);
    GetFirstAttempt(isUrl, prepare, prepare(url), retry - 1, proxy, network, 1);
  }

  /** The as-written retry: when the validator accepts the URL and the
      prepared URL, after a retryable first outcome the second attempt asks
      for the first attempt's URL with the query appended again, a different
      URL. */
  lemma GetSecondAttempt(c: Collaborators, url: string, params: Params, retry: int, proxy: string,
                         network: Network)
    requires EncodesToBaseDigits(c.punycode)
    requires QueryItems(params) != []
    requires retry >= 2
    requires GetRetries(network(0))
    requires c.isUrl(url) && c.isUrl(RequestUrl(c, url, params))
    ensures var r := HttpGet(c, url, params, retry, proxy, network);
      var u := Prepare(c, params)(url);
      && |r.events| > 2
      && r.events[0] == Attempt(Request(u, ProxyOf(proxy)))
      && r.events[2] == Attempt(Request(u + "&" + UrlEncode(QueryItems(params)), ProxyOf(proxy)))
      && r.events[2] != r.events[0]
  {
    var prepare := Prepare(c, params);
    GetSecondRequest(c.isUrl, prepare, url, retry, proxy, network);
    RetryUrlGrows(c, url, params);
    assert prepare(prepare(url)) == RequestUrl(c, RequestUrl(c, url, params), params);
  }

  /** The validator of a corrected call, which checks the URL once. */
  function AcceptAll(s: string): bool {
    true
  }

  /** The preparation of a corrected call, which prepares the URL once. */
  function Keep(s: string): string {
    s
  }

  /** `http_get` with the retry passing the caller's URL rather than the
      prepared one: the URL is validated and prepared once, and every
      attempt asks for it. */
  function HttpGetIntended(c: Collaborators, url: string, params: Params, retry: int,
                           proxy: string, network: Network): (r: GetRun)
    ensures !c.isUrl(url) || retry <= 0 ==> r == GetRun([], [])
    ensures c.isUrl(url) && retry > 0 ==> 0 < Attempts(r.events) <= retry
  {
    if !c.isUrl(url) then GetRun([], [])
    else Get(AcceptAll, Keep, Prepare(c, params)(url), retry, proxy, network, 0)
  }

  /** Every attempt among `events` sends `req`. */
  predicate AllAttemptsAre(events: seq<Event>, req: Request) {
    forall k :: 0 <= k < |events| && events[k].Attempt? ==> events[k].request == req
  }

  /** A call whose URL preparation leaves `u` unchanged asks for `u` on every
      attempt. */
  lemma {:induction false} GetFixedUrl(isUrl: string -> bool, prepare: string -> string, u: string,
                                       retry: int, proxy: string, network: Network, n: nat)
    requires prepare(u) == u
    ensures AllAttemptsAre(Get(isUrl, prepare, u, retry, proxy, network, n).events,
                           Request(u, ProxyOf(proxy)))
    decreases if retry > 0 then retry else 0
  {
    if isUrl(u) && retry > 0 {
      if GetRetries(network(n)) {
        GetRetryStep(isUrl, prepare, u, retry, proxy, network, n);
        GetFixedUrl(isUrl, prepare, u, retry - 1, proxy, network, n + 1);
      } else {
        GetStopsWithoutRetry(isUrl, prepare, u, retry, proxy, network, n);
      }
    }
  }

  /** The corrected call asks for the prepared URL on every attempt. */
  lemma IntendedSameUrl(c: Collaborators, url: string, params: Params, retry: int, proxy: string,
                        network: Network)
    ensures AllAttemptsAre(HttpGetIntended(c, url, params, retry, proxy, network).events,
                           Request(Prepare(c, params)(url), ProxyOf(proxy)))
  {
    if c.isUrl(url) {
      GetFixedUrl(AcceptAll, Keep, Prepare(c, params)(url), retry, proxy, network, 0);
    }
  }

  /** Once the URL has been prepared to a fixed point of the preparation
      that the validator accepts, the call as written behaves as the
      corrected one. */
  lemma {:induction false} GetAgreesFromFixed(isUrl: string -> bool, prepare: string -> string,
                                              url: string, u: string, retry: int, proxy: string,
                                              network: Network, n: nat)
    requires isUrl(url) && isUrl(u)
    requires prepare(url) == u && prepare(u) == u
    ensures Get(isUrl, prepare, url, retry, proxy, network, n)
         == Get(AcceptAll, Keep, u, retry, proxy, network, n)
    decreases if retry > 0 then retry else 0
  {
    if retry <= 0 {
    } else if GetRetries(network(n)) {
      GetRetryStep(isUrl, prepare, url, retry, proxy, network, n);
      GetRetryStep(AcceptAll, Keep, u, retry, proxy, network, n);
      GetAgreesFromFixed(isUrl, prepare, u, u, retry - 1, proxy, network, n + 1);
    } else {
      GetStopsWithoutRetry(isUrl, prepare, url, retry, proxy, network, n);
      GetStopsWithoutRetry(AcceptAll, Keep, u, retry, proxy, network, n);
    }
  }

  /** Without query items, and with a validator that accepts the encoded
      URL, the call as written and the corrected call coincide: the defect
      needs query items to show. */
  lemma AgreesWithoutItems(c: Collaborators, url: string, params: Params, retry: int,
                           proxy: string, network: Network)
    requires EncodesToBaseDigits(c.punycode)
    requires QueryItems(params) == []
    requires c.isUrl(url) ==> c.isUrl(EncodingUrl(url, c.punycode))
    ensures HttpGet(c, url, params, retry, proxy, network)
         == HttpGetIntended(c, url, params, retry, proxy, network)
  {
    if c.isUrl(url) {
      var e := EncodingUrl(url, c.punycode);
      EncodingIdempotent(url, c.punycode);
      assert Prepare(c, params)(url) == e;
      assert Prepare(c, params)(e) == e;
      GetAgreesFromFixed(c.isUrl, Prepare(c, params), url, e, retry, proxy, network, 0);
    }
  }

}

=== FILE: httppost.dfy ===
/**
 * The retry policy of `http_post`. The request itself (URL, headers, JSON
 * payload) is the same on every attempt, so a run is described by its
 * response and the number of attempts it made.
 */
module HttpPost {
  import opened Wrappers
  import opened Query
  import opened Net

  /** The live response handle the caller gets on success. */
  datatype Response = Response(status: int, body: string)

  datatype PostRun = PostRun(response: Option<Response>, attempts: nat)

  /** Outcomes after which `http_post` tries again: an HTTP error other than
      401 and 404, or an unexpected exception. */
  predicate PostRetries(o: Outcome) {
    (o.HttpErr? && o.code != 401 && o.code != 404) || o.OtherErr?
  }

  /** `http_post(url, headers, params, retry)` with the attempts numbered
      from `n` on. It gives up without an attempt when `retry <= 0` or
      `params` is not exactly a `dict`; it returns the response of the first
      attempt that succeeds; it stops on 401, 404 or a URL error; otherwise
      it calls itself with `retry - 1`. */
  function HttpPost(params: Params, retry: int, network: Network, n: nat): (r: PostRun)
    ensures retry <= 0 || !params.Dict? ==> r == PostRun(None, 0)
    ensures retry > 0 && params.Dict? ==> r.attempts > 0
    ensures r.attempts <= if retry > 0 then retry else 0
    ensures forall j :: n <= j < n + r.attempts - 1 ==> PostRetries(network(j))
    ensures r.attempts > 0 && r.attempts < retry ==> !PostRetries(network(n + r.attempts - 1))
    ensures r.response.Some? <==> r.attempts > 0 && network(n + r.attempts - 1).Ok?
    ensures r.response.Some? ==>
      network(n + r.attempts - 1) == Ok(r.response.value.status, r.response.value.body)
    decreases if retry > 0 then retry else 0
  {
    if retry <= 0 || !params.Dict? then PostRun(None, 0)
    else
      match network(n)
      case Ok(status, body) => PostRun(Some(Response(status, body)), 1)
      case HttpErr(code, _) =>
        if code == 401 || code == 404 then PostRun(None, 1)
        else
          var rest := HttpPost(params, retry - 1, network, n + 1);
          PostRun(rest.response, rest.attempts + 1)
      case UrlErr => PostRun(None, 1)
      case OtherErr =>
        var rest := HttpPost(params, retry - 1, network, n + 1);
        PostRun(rest.response, rest.attempts + 1)
  }

  /** A 401 or 404 answer, or a URL error, ends the call after one attempt
      with no response. */
  lemma PostStopsOnRejection(params: Params, retry: int, network: Network, n: nat)
    requires retry > 0 && params.Dict?
    requires var o := network(n); (o.HttpErr? && (o.code == 401 || o.code == 404)) || o.UrlErr?
    ensures HttpPost(params, retry, network, n) == PostRun(None, 1)
  {
  }

  /** When every attempt fails in a retryable way the call makes exactly
      `retry` attempts and returns no response. */
  lemma {:induction false} PostExhausts(params: Params, retry: int, network: Network, n: nat)
    requires retry > 0 && params.Dict?
    requires forall j :: n <= j < n + retry ==> PostRetries(network(j))
    ensures HttpPost(params, retry, network, n) == PostRun(None, retry)
    decreases retry
  {
    assert PostRetries(network(n));
    if retry > 1 {
      PostExhausts(params, retry - 1, network, n + 1);
    }
  }

  /** The same policy as a bounded loop with an explicit attempt budget. */
  method HttpPostLoop(params: Params, retry: int, network: Network) returns (response: Option<Response>, attempts: nat)
    ensures PostRun(response, attempts) == HttpPost(params, retry, network, 0)
  {
    if retry <= 0 || !params.Dict? {
      return None, 0;
    }
    var budget := retry;
    attempts := 0;
    while budget > 0
      invariant 0 <= budget && attempts + budget == retry
      invariant var rest := HttpPost(params, budget, network, attempts);
        HttpPost(params, retry, network, 0) == PostRun(rest.response, rest.attempts + attempts)
      decreases budget
    {
      var o := network(attempts);
      if o.Ok? {
        return Some(Response(o.status, o.body)), attempts + 1;
      }
      if !PostRetries(o) {
        return None, attempts + 1;
      }
      budget := budget - 1;
      attempts := attempts + 1;
    }
    response := None;
  }

}

=== FILE: idna.dfy ===
/**
 * `encoding_url`: every maximal run of CJK Unified Ideographs
 * (U+4E00..U+9FA5) in a URL is replaced by `xn--` followed by the run's
 * punycode (section 6.3 of RFC 3492). The punycode codec is a parameter.
 */
module IdnaUrl {
  import opened Text

  /** The character class `[一-龥]` of the `re.findall` pattern in `encoding_url`. */
  predicate IsCjk(c: char) {
    0x4E00 <= c as int <= 0x9FA5
  }

  predicate NoCjk(s: string) {
    forall i :: 0 <= i < |s| ==> !IsCjk(s[i])
  }

  predicate AllCjk(s: string) {
    forall i :: 0 <= i < |s| ==> IsCjk(s[i])
  }

  /** A base-36 digit of section 5 of RFC 3492 as Python writes it: `a`..`z`, `0`..`9`. */
  predicate BaseDigit(c: char) {
    ('a' <= c <= 'z') || ('0' <= c <= '9')
  }

  predicate BaseDigits(s: string) {
    forall i :: 0 <= i < |s| ==> BaseDigit(s[i])
  }

  /** What is assumed of the punycode codec: a non-empty run of CJK
      ideographs, which has no basic code points to copy, encodes to base-36
      digits alone, with no `-` delimiter. Nothing is assumed of other
      strings. */
  ghost predicate EncodesToBaseDigits(punycode: string -> string) {
    forall s :: s != [] && AllCjk(s) ==> BaseDigits(punycode(s))
  }

  /** The ASCII encoded that replaces one run. */
  function Label(run: string, punycode: string -> string): string {
    "xn--" + punycode(run)
  }

  /** Length of the longest prefix of `s` made of CJK characters. */
  function LeadRun(s: string): (k: nat)
    ensures k <= |s| && AllCjk(s[..k])
    ensures k < |s| ==> !IsCjk(s[k])
  {
    if |s| > 0 && IsCjk(s[0]) then
      var k := 1 + LeadRun(s[1..]);
      assert s[..k] == [s[0]] + s[1..][..k - 1];
      k
    else 0
  }

  /** `re.findall("[一-龥]+", s)`: the maximal CJK runs, left to right. */
  function Runs(s: string): (rs: seq<string>)
    ensures forall j :: 0 <= j < |rs| ==> rs[j] != [] && AllCjk(rs[j])
    ensures rs == [] <==> NoCjk(s)
    decreases |s|
  {
    if |s| == 0 then []
    else if IsCjk(s[0]) then
      var k := LeadRun(s);
      [s[..k]] + Runs(s[k..])
    else
      var rest := Runs(s[1..]);
      assert NoCjk(s[1..]) ==> NoCjk(s) by {
        if NoCjk(s[1..]) {
          forall i | 0 <= i < |s| ensures !IsCjk(s[i]) {
            if i > 0 { assert s[i] == s[1..][i - 1]; }
          }
        }
      }
      rest
  }

  /** Python's `s[:j]`: a negative `j` counts from the end, and the bound is
      clamped to the string. */
  function PySliceTo(s: string, j: int): string {
    var k := if j < 0 then j + |s| else j;
    if k < 0 then [] else if k > |s| then s else s[..k]
  }

  /** Python's `s[j:]`. */
  function PySliceFrom(s: string, j: int): string {
    var k := if j < 0 then j + |s| else j;
    if k < 0 then s else if k > |s| then [] else s[k..]
  }

  /** One step of the replacement loop of `encoding_url`: everything before
      the first occurrence of `c`, then `pc`, then everything after that
      occurrence. The cut points use Python's slice rules, so a missing `c`
      (index -1) is handled as Python would handle it. */
  function SpliceFirst(url: string, c: string, pc: string): string {
    var i := Find(url, c, 0);
    PySliceTo(url, i) + pc + PySliceFrom(url, i + |c|)
  }

  /** The replacement loop of `encoding_url` over the runs, in the order
      they were found. */
  function SpliceAll(url: string, runs: seq<string>, punycode: string -> string): string
    decreases |runs|
  {
    if runs == [] then url
    else SpliceAll(SpliceFirst(url, runs[0], Label(runs[0], punycode)), runs[1..], punycode)
  }

  /** `encoding_url(url)` as written: empty input gives `""`; otherwise the
      stripped URL, with each run spliced over the first occurrence of its
      text in the URL as rewritten so far. */
  function EncodingUrl(url: string, punycode: string -> string): (r: string)
    ensures url == [] ==> r == []
    ensures NoCjk(Strip(url)) ==> r == Strip(url)
  {
    if url == [] then []
    else
      var u := Strip(url);
      var runs := Runs(u);
      if runs == [] then u else SpliceAll(u, runs, punycode)
  }

  /** Reference definition: each maximal run replaced by its label in
      place, all other characters copied in order. */
  function Positional(s: string, punycode: string -> string): string
    decreases |s|
  {
    if |s| == 0 then []
    else if IsCjk(s[0]) then
      var k := LeadRun(s);
      Label(s[..k], punycode) + Positional(s[k..], punycode)
    else
      [s[0]] + Positional(s[1..], punycode)
  }

  /** A CJK-free string is left as it is. */
  lemma {:induction false} PositionalIdentity(s: string, punycode: string -> string)
    requires NoCjk(s)
    ensures Positional(s, punycode) == s
    decreases |s|
  {
    if s != [] {
      assert !IsCjk(s[0]);
      PositionalIdentity(s[1..], punycode);
      assert s == [s[0]] + s[1..];
    }
  }

  /** Under the codec assumption no CJK character survives. */
  lemma {:induction false} PositionalHasNoCjk(s: string, punycode: string -> string)
    requires EncodesToBaseDigits(punycode)
    ensures NoCjk(Positional(s, punycode))
    decreases |s|
  {
    if s == [] {
    } else if IsCjk(s[0]) {
      var k := LeadRun(s);
      PositionalHasNoCjk(s[k..], punycode);
      LabelNoCjk(s[..k], punycode);
      NoCjkConcat(Label(s[..k], punycode), Positional(s[k..], punycode));
    } else {
      PositionalHasNoCjk(s[1..], punycode);
      NoCjkConcat([s[0]], Positional(s[1..], punycode));
    }
  }

  lemma NoCjkConcat(a: string, b: string)
    ensures NoCjk(a) && NoCjk(b) ==> NoCjk(a + b)
  {
    if NoCjk(a) && NoCjk(b) {
      forall i | 0 <= i < |a + b| ensures !IsCjk((a + b)[i]) {
        if i < |a| { assert (a + b)[i] == a[i]; } else { assert (a + b)[i] == b[i - |a|]; }
      }
    }
  }

  /** The first occurrence of a run is its own position: everything to
      its left is CJK-free, while the run starts with a CJK character. */
  lemma FindHitsOwnRun(p: string, s: string, c: string)
    requires NoCjk(p)
    requires c != [] && IsCjk(c[0]) && c <= s
    ensures Find(p + s, c, 0) == |p|
  {
    var t := p + s;
    assert t[|p|..|p| + |c|] == c;
    assert OccursAt(t, c, |p|);
  }

  lemma LabelNoCjk(run: string, punycode: string -> string)
    requires EncodesToBaseDigits(punycode)
    requires run != [] && AllCjk(run)
    ensures NoCjk(Label(run, punycode))
  {
    var pc := Label(run, punycode);
    assert BaseDigits(punycode(run));
    forall i | 0 <= i < |pc| ensures !IsCjk(pc[i]) {
      if i >= 4 { assert pc[i] == punycode(run)[i - 4]; }
    }
  }

  /** One step of the loop on a string whose unprocessed part starts with
      the run `s[..k]`. */
  lemma SpliceAtOwnRun(p: string, s: string, k: nat, pc: string)
    requires NoCjk(p)
    requires 0 < k <= |s| && AllCjk(s[..k])
    ensures SpliceFirst(p + s, s[..k], pc) == (p + pc) + s[k..]
  {
    var t := p + s;
    var c := s[..k];
    FindHitsOwnRun(p, s, c);
    assert PySliceTo(t, |p|) == p;
    assert PySliceFrom(t, |p| + |c|) == s[k..];
  }

  /** The heart of the replacement loop of `encoding_url`: with a CJK-free
      prefix `p` already rewritten, splicing the runs of `s` one by one over
      their first occurrences rewrites `s` in place. */
  lemma {:induction false} SpliceAllFromPrefix(p: string, s: string, punycode: string -> string)
    requires EncodesToBaseDigits(punycode)
    requires NoCjk(p)
    ensures SpliceAll(p + s, Runs(s), punycode) == p + Positional(s, punycode)
    decreases |s|, 1
  {
    if |s| == 0 {
      assert p + s == p;
    } else if IsCjk(s[0]) {
      SpliceAllAtRun(p, s, punycode);
    } else {
      SpliceAllAtOther(p, s, punycode);
    }
  }

  lemma {:induction false} SpliceAllAtRun(p: string, s: string, punycode: string -> string)
    requires EncodesToBaseDigits(punycode)
    requires NoCjk(p)
    requires s != [] && IsCjk(s[0])
    ensures SpliceAll(p + s, Runs(s), punycode) == p + Positional(s, punycode)
    decreases |s|, 0
  {
    var k := LeadRun(s);
    var pc := Label(s[..k], punycode);
    calc {
      SpliceAll(p + s, Runs(s), punycode);
      == { RunsAtRun(s); }
      SpliceAll(SpliceFirst(p + s, s[..k], pc), Runs(s[k..]), punycode);
      == { SpliceAtOwnRun(p, s, k, pc); }
      SpliceAll((p + pc) + s[k..], Runs(s[k..]), punycode);
      == { LabelNoCjk(s[..k], punycode); NoCjkConcat(p, pc);
           SpliceAllFromPrefix(p + pc, s[k..], punycode); }
      (p + pc) + Positional(s[k..], punycode);
      == { PositionalAtRun(s, punycode); }
      p + Positional(s, punycode);
    }
  }

  lemma {:induction false} SpliceAllAtOther(p: string, s: string, punycode: string -> string)
    requires EncodesToBaseDigits(punycode)
    requires NoCjk(p)
    requires s != [] && !IsCjk(s[0])
    ensures SpliceAll(p + s, Runs(s), punycode) == p + Positional(s, punycode)
    decreases |s|, 0
  {
    calc {
      SpliceAll(p + s, Runs(s), punycode);
      == { assert Runs(s) == Runs(s[1..]); assert p + s == (p + [s[0]]) + s[1..]; }
      SpliceAll((p + [s[0]]) + s[1..], Runs(s[1..]), punycode);
      == { NoCjkConcat(p, [s[0]]); SpliceAllFromPrefix(p + [s[0]], s[1..], punycode); }
      (p + [s[0]]) + Positional(s[1..], punycode);
      == { PositionalCopy(s, punycode); }
      p + Positional(s, punycode);
    }
  }

  lemma RunsAtRun(s: string)
    requires s != [] && IsCjk(s[0])
    ensures var k := LeadRun(s);
      Runs(s) != [] && Runs(s)[0] == s[..k] && Runs(s)[1..] == Runs(s[k..])
  {
  }

  lemma PositionalAtRun(s: string, punycode: string -> string)
    requires s != [] && IsCjk(s[0])
    ensures var k := LeadRun(s);
      Positional(s, punycode) == Label(s[..k], punycode) + Positional(s[k..], punycode)
  {
  }

  lemma PositionalCopy(s: string, punycode: string -> string)
    requires s != [] && !IsCjk(s[0])
    ensures Positional(s, punycode) == [s[0]] + Positional(s[1..], punycode)
  {
  }

  /** The first-occurrence splicing in `encoding_url` always lands on the run's
      own position, so `encoding_url` is the in-place rewrite of the
      stripped URL. */
  lemma EncodingIsPositional(url: string, punycode: string -> string)
    requires EncodesToBaseDigits(punycode)
    ensures EncodingUrl(url, punycode) == Positional(Strip(url), punycode)
  {
    if url != [] {
      var u := Strip(url);
      if Runs(u) == [] {
        PositionalIdentity(u, punycode);
      } else {
        SpliceAllFromPrefix([], u, punycode);
        assert [] + u == u;
      }
    }
  }

  /** Rewriting in place: a CJK-free stretch is copied, a maximal run
      becomes its label, and the rest is rewritten the same way. */
  lemma {:induction false} PositionalInPlace(g: string, run: string, t: string, punycode: string -> string)
    requires NoCjk(g)
    requires run != [] && AllCjk(run)
    requires t == [] || !IsCjk(t[0])
    ensures Positional(g + run + t, punycode) == g + Label(run, punycode) + Positional(t, punycode)
    decreases |g|, 1
  {
    if g == [] {
      assert g + run + t == run + t;
      PositionalRun(run, t, punycode);
    } else {
      PositionalInPlaceStep(g, run, t, punycode);
    }
  }

  lemma {:induction false} PositionalInPlaceStep(g: string, run: string, t: string, punycode: string -> string)
    requires g != [] && NoCjk(g)
    requires run != [] && AllCjk(run)
    requires t == [] || !IsCjk(t[0])
    ensures Positional(g + run + t, punycode) == g + Label(run, punycode) + Positional(t, punycode)
    decreases |g|, 0
  {
    var s := g + run + t;
    var tail := g[1..] + run + t;
    assert s == [g[0]] + tail;
    PositionalCopy(s, punycode);
    assert s[1..] == tail;
    PositionalInPlace(g[1..], run, t, punycode);
    assert g == [g[0]] + g[1..];
  }

  lemma PositionalRun(run: string, t: string, punycode: string -> string)
    requires run != [] && AllCjk(run)
    requires t == [] || !IsCjk(t[0])
    ensures Positional(run + t, punycode) == Label(run, punycode) + Positional(t, punycode)
  {
    var s := run + t;
    RunIsLead(run, t);
    assert s[0] == run[0];
    assert s[..|run|] == run && s[|run|..] == t;
  }

  lemma RunIsLead(run: string, t: string)
    requires run != [] && AllCjk(run)
    requires t == [] || !IsCjk(t[0])
    ensures LeadRun(run + t) == |run|
    decreases |run|
  {
    var s := run + t;
    assert s[1..] == run[1..] + t;
    if |run| > 1 {
      RunIsLead(run[1..], t);
    } else {
      assert run[1..] + t == t;
    }
  }

  /** Under the codec assumption a stripped URL stays stripped: the first
      character is kept or becomes `x`, the last is kept or becomes a digit
      or `-`. */
  lemma {:induction false} PositionalKeepsStripped(s: string, punycode: string -> string)
    requires EncodesToBaseDigits(punycode)
    requires IsStripped(s)
    ensures IsStripped(Positional(s, punycode))
  {
    if s != [] {
      PositionalLastChar(s, punycode);
      if IsCjk(s[0]) {
        var k := LeadRun(s);
        assert Positional(s, punycode)[0] == 'x';
      } else {
        assert Positional(s, punycode)[0] == s[0];
      }
    }
  }

  lemma {:induction false} PositionalLastChar(s: string, punycode: string -> string)
    requires EncodesToBaseDigits(punycode)
    requires s != [] && !IsSpace(s[|s| - 1])
    ensures var r := Positional(s, punycode);
      r != [] && !IsSpace(r[|r| - 1])
    decreases |s|
  {
    var r := Positional(s, punycode);
    if IsCjk(s[0]) {
      var k := LeadRun(s);
      var pc := Label(s[..k], punycode);
      if k == |s| {
        assert r == pc + [];
        assert BaseDigits(punycode(s[..k]));
        if |punycode(s[..k])| > 0 {
          assert r[|r| - 1] == punycode(s[..k])[|punycode(s[..k])| - 1];
        }
      } else {
        assert s[k..][|s[k..]| - 1] == s[|s| - 1];
        PositionalLastChar(s[k..], punycode);
      }
    } else {
      if |s| == 1 {
        assert r == [s[0]] + [];
      } else {
        assert s[1..][|s[1..]| - 1] == s[|s| - 1];
        PositionalLastChar(s[1..], punycode);
      }
    }
  }

  /** The result has no CJK character left. */
  lemma EncodingHasNoCjk(url: string, punycode: string -> string)
    requires EncodesToBaseDigits(punycode)
    ensures NoCjk(EncodingUrl(url, punycode))
    ensures IsStripped(EncodingUrl(url, punycode))
  {
    EncodingIsPositional(url, punycode);
    PositionalHasNoCjk(Strip(url), punycode);
    PositionalKeepsStripped(Strip(url), punycode);
  }

  /** A CJK-free stripped string is a fixed point of the encoder. */
  lemma EncodingFixes(u: string, punycode: string -> string)
    requires NoCjk(u) && IsStripped(u)
    ensures EncodingUrl(u, punycode) == u
  {
    StripStripped(u);
  }

  /** A second application is a no-op. */
  lemma EncodingIdempotent(url: string, punycode: string -> string)
    requires EncodesToBaseDigits(punycode)
    ensures EncodingUrl(EncodingUrl(url, punycode), punycode) == EncodingUrl(url, punycode)
  {
    EncodingHasNoCjk(url, punycode);
    EncodingFixes(EncodingUrl(url, punycode), punycode);
  }

  /** A URL with a single run between CJK-free text is rewritten at that
      run alone. */
  lemma EncodingOneRun(g: string, run: string, t: string, punycode: string -> string)
    requires EncodesToBaseDigits(punycode)
    requires NoCjk(g) && NoCjk(t)
    requires run != [] && AllCjk(run)
    requires IsStripped(g + run + t)
    ensures EncodingUrl(g + run + t, punycode) == g + Label(run, punycode) + t
  {
    EncodingIsPositional(g + run + t, punycode);
    StripStripped(g + run + t);
    PositionalInPlace(g, run, t, punycode);
    PositionalIdentity(t, punycode);
  }

  /** Only the CJK ideographs of U+4E00..U+9FA5 are encoded: in
      `http://例え.jp/path` the hiragana `え` (U+3048) stays as it is. */
  lemma HiraganaKept(punycode: string -> string)
    requires EncodesToBaseDigits(punycode)
    ensures EncodingUrl("http://例え.jp/path", punycode) == "http://" + Label("例", punycode) + "え.jp/path"
  {
    assert "http://例え.jp/path" == "http://" + "例" + "え.jp/path";
    EncodingOneRun("http://", "例", "え.jp/path", punycode);
  }

}

=== FILE: net.dfy ===
/** What one attempt of `urlopen` can end in, as the retry logic of the
    HTTP helpers tells them apart. */
module Net {

  /** `Ok`: a response was read and decoded (status and text);
      `HttpErr`: `urllib.error.HTTPError` with its code and decoded body;
      `UrlErr`: any other `urllib.error.URLError`;
      `OtherErr`: any other exception raised while the attempt runs. */
  datatype Outcome =
    | Ok(status: int, body: string)
    | HttpErr(code: int, body: string)
    | UrlErr
    | OtherErr

  /** The network, scripted: the outcome of the attempt with a given index,
      counting from 0 over the whole chain of retries. */
  type Network = nat -> Outcome

}

=== FILE: query.dfy ===
/**
 * The URL pieces `http_get` builds before it opens a connection: the query
 * string of `urllib.parse.urlencode` (with its default `quote_plus`), the
 * `?`/`&` append, and the proxy split.
 */
module Query {
  import opened Text
  import opened Wrappers

  /** The `params` argument as the helpers tell it apart: `None`, a `dict`
      (its items in insertion order, keys and values already passed through
      `str`), an instance of a subclass of `dict`, or anything else. */
  datatype Params =
    | NoParams
    | Dict(entries: seq<(string, string)>)
    | DictSubclass(items: seq<(string, string)>)
    | NotDict

  /** `_ALWAYS_SAFE` of `urllib.parse`: ASCII letters, digits and `_.-~`. */
  predicate AlwaysSafe(c: char) {
    ('A' <= c <= 'Z') || ('a' <= c <= 'z') || ('0' <= c <= '9')
    || c == '_' || c == '.' || c == '-' || c == '~'
  }

  /** The characters `quote_plus` can produce. */
  predicate QuotedChar(c: char) {
    AlwaysSafe(c) || c == '+' || c == '%'
  }

  predicate Quoted(s: string) {
    forall i :: 0 <= i < |s| ==> QuotedChar(s[i])
  }

  /** The number of bytes UTF-8 uses for a scalar value, by the table of
      section 3 of RFC 3629. */
  function Utf8Width(n: int): nat {
    if n < 0x80 then 1 else if n < 0x800 then 2 else if n < 0x1_0000 then 3 else 4
  }

  /** The length of a UTF-8 sequence as its lead byte announces it. */
  function LeadLength(lead: int): nat {
    if lead < 0x80 then 1 else if lead < 0xE0 then 2 else if lead < 0xF0 then 3 else 4
  }

  predicate Continuation(b: int) {
    0x80 <= b < 0xC0
  }

  /** The scalar value a UTF-8 sequence of 1 to 4 bytes carries: the payload
      bits of the lead byte followed by six bits from each continuation. */
  function ScalarOf(bytes: seq<int>): int
    requires 1 <= |bytes| <= 4
  {
    if |bytes| == 1 then bytes[0]
    else if |bytes| == 2 then (bytes[0] - 0xC0) * 0x40 + (bytes[1] - 0x80)
    else if |bytes| == 3 then
      (bytes[0] - 0xE0) * 0x1000 + (bytes[1] - 0x80) * 0x40 + (bytes[2] - 0x80)
    else
      (bytes[0] - 0xF0) * 0x4_0000 + (bytes[1] - 0x80) * 0x1000
      + (bytes[2] - 0x80) * 0x40 + (bytes[3] - 0x80)
  }

  /** The two-byte form, for U+0080..U+07FF. */
  function Utf8Two(n: int): (bytes: seq<int>)
    requires 0x80 <= n < 0x800
    ensures |bytes| == 2 && LeadLength(bytes[0]) == 2 && 0 <= bytes[0] < 256
    ensures Continuation(bytes[1]) && ScalarOf(bytes) == n
  {
    [0xC0 + n / 0x40, 0x80 + n % 0x40]
  }

  /** The three-byte form, for U+0800..U+FFFF. */
  function Utf8Three(n: int): (bytes: seq<int>)
    requires 0x800 <= n < 0x1_0000
    ensures |bytes| == 3 && LeadLength(bytes[0]) == 3 && 0 <= bytes[0] < 256
    ensures Continuation(bytes[1]) && Continuation(bytes[2]) && ScalarOf(bytes) == n
  {
    var lo := n % 0x40;
    var mid := (n / 0x40) % 0x40;
    var hi := n / 0x1000;
    assert n / 0x40 == hi * 0x40 + mid;
    [0xE0 + hi, 0x80 + mid, 0x80 + lo]
  }

  /** The four-byte form, for U+10000..U+10FFFF. */
  function Utf8Four(n: int): (bytes: seq<int>)
    requires 0x1_0000 <= n < 0x11_0000
    ensures |bytes| == 4 && LeadLength(bytes[0]) == 4 && 0 <= bytes[0] < 256
    ensures Continuation(bytes[1]) && Continuation(bytes[2]) && Continuation(bytes[3])
    ensures ScalarOf(bytes) == n
  {
    var b3 := n % 0x40;
    var b2 := (n / 0x40) % 0x40;
    var b1 := (n / 0x1000) % 0x40;
    var b0 := n / 0x4_0000;
    assert n / 0x40 == (n / 0x1000) * 0x40 + b2;
    assert n / 0x1000 == b0 * 0x40 + b1;
    [0xF0 + b0, 0x80 + b1, 0x80 + b2, 0x80 + b3]
  }

  /** The UTF-8 encoding of one Unicode scalar value: as many bytes as the
      table asks for, a lead byte announcing that length, continuation bytes
      after it, and together they carry the value. */
  function Utf8(c: char): (bytes: seq<int>)
    ensures |bytes| == Utf8Width(c as int)
    ensures forall i :: 0 <= i < |bytes| ==> 0 <= bytes[i] < 256
    ensures LeadLength(bytes[0]) == |bytes|
    ensures forall i :: 1 <= i < |bytes| ==> Continuation(bytes[i])
    ensures ScalarOf(bytes) == c as int
    ensures c as int < 0x80 ==> bytes == [c as int]
  {
    var n := c as int;
    if n < 0x80 then [n]
    else if n < 0x800 then Utf8Two(n)
    else if n < 0x1_0000 then Utf8Three(n)
    else Utf8Four(n)
  }

  /** A character's encoding is told apart from any other at the start of a
      byte string: the lead byte fixes the length and the bytes fix the
      value. */
  lemma Utf8PrefixFree(a: char, b: char, x: seq<int>, y: seq<int>)
    requires Utf8(a) + x == Utf8(b) + y
    ensures a == b && x == y
  {
    var ea, eb := Utf8(a), Utf8(b);
    assert ea[0] == (ea + x)[0] == (eb + y)[0] == eb[0];
    assert |ea| == |eb|;
    assert ea == (ea + x)[..|ea|] == (eb + y)[..|eb|] == eb;
    assert a as int == ScalarOf(ea) == b as int;
    assert x == (ea + x)[|ea|..] == (eb + y)[|eb|..] == y;
  }

  const HexDigits: string := "0123456789ABCDEF"

  /** `%XY` for one byte, upper-case hexadecimal. */
  function PercentByte(b: int): (r: string)
    requires 0 <= b < 256
    ensures |r| == 3 && r[0] == '%' && Quoted(r)
  {
    ['%', HexDigits[b / 16], HexDigits[b % 16]]
  }

  function PercentBytes(bytes: seq<int>): (r: string)
    requires forall i :: 0 <= i < |bytes| ==> 0 <= bytes[i] < 256
    ensures |r| == 3 * |bytes| && Quoted(r)
  {
    if bytes == [] then [] else PercentByte(bytes[0]) + PercentBytes(bytes[1..])
  }

  /** `quote_plus` for one character: a space becomes `+`, an always-safe
      character stays, anything else becomes its UTF-8 bytes as `%XY`. */
  function QuoteChar(c: char): (r: string)
    ensures Quoted(r) && r != []
  {
    if c == ' ' then "+"
    else if AlwaysSafe(c) then [c]
    else PercentBytes(Utf8(c))
  }

  /** `urllib.parse.quote_plus(s)` with its defaults (`safe=''`, UTF-8). */
  function QuotePlus(s: string): (r: string)
    ensures Quoted(r)
    ensures |r| >= |s|
  {
    if s == [] then [] else QuoteChar(s[0]) + QuotePlus(s[1..])
  }

  /** Text made only of always-safe characters is not changed. */
  lemma {:induction false} QuotePlusSafe(s: string)
    requires forall i :: 0 <= i < |s| ==> AlwaysSafe(s[i])
    ensures QuotePlus(s) == s
  {
    if s != [] {
      QuotePlusSafe(s[1..]);
      assert s == [s[0]] + s[1..];
    }
  }

  /** The UTF-8 bytes of a whole string. */
  function Utf8Of(s: string): seq<int> {
    if s == [] then [] else Utf8(s[0]) + Utf8Of(s[1..])
  }

  /** Distinct strings have distinct UTF-8 bytes. */
  lemma {:induction false} Utf8OfInjective(s: string, t: string)
    requires Utf8Of(s) == Utf8Of(t)
    ensures s == t
    decreases |s|
  {
    if s != [] && t != [] {
      assert Utf8Of(s) == Utf8(s[0]) + Utf8Of(s[1..]);
      assert Utf8Of(t) == Utf8(t[0]) + Utf8Of(t[1..]);
      Utf8PrefixFree(s[0], t[0], Utf8Of(s[1..]), Utf8Of(t[1..]));
      Utf8OfInjective(s[1..], t[1..]);
      assert s == [s[0]] + s[1..] && t == [t[0]] + t[1..];
    }
  }

  /** Value of a hexadecimal digit (either case), or -1. */
  function HexValue(c: char): int {
    if '0' <= c <= '9' then c as int - '0' as int
    else if 'A' <= c <= 'F' then c as int - 'A' as int + 10
    else if 'a' <= c <= 'f' then c as int - 'a' as int + 10
    else -1
  }

  /** Decoding side of `quote_plus`, as `unquote_plus` does it before its
      final UTF-8 decode: `+` is a space, `%XY` a byte, and any other
      character (including a `%` not followed by two hex digits) its own
      UTF-8 bytes. */
  function UnquotePlusBytes(q: string): seq<int>
    decreases |q|
  {
    if q == [] then []
    else if q[0] == '+' then [0x20] + UnquotePlusBytes(q[1..])
    else if q[0] == '%' && |q| >= 3 && HexValue(q[1]) >= 0 && HexValue(q[2]) >= 0 then
      [16 * HexValue(q[1]) + HexValue(q[2])] + UnquotePlusBytes(q[3..])
    else Utf8(q[0]) + UnquotePlusBytes(q[1..])
  }

  lemma HexDigitValue(d: int)
    requires 0 <= d < 16
    ensures HexValue(HexDigits[d]) == d
  {
  }

  lemma UnquotePercentByte(b: int, rest: string)
    requires 0 <= b < 256
    ensures UnquotePlusBytes(PercentByte(b) + rest) == [b] + UnquotePlusBytes(rest)
  {
    var q := PercentByte(b) + rest;
    HexDigitValue(b / 16);
    HexDigitValue(b % 16);
    assert q[0] == '%' && q[1] == HexDigits[b / 16] && q[2] == HexDigits[b % 16];
    assert q[3..] == rest;
  }

  lemma {:induction false} UnquotePercentBytes(bytes: seq<int>, rest: string)
    requires forall i :: 0 <= i < |bytes| ==> 0 <= bytes[i] < 256
    ensures UnquotePlusBytes(PercentBytes(bytes) + rest) == bytes + UnquotePlusBytes(rest)
    decreases |bytes|
  {
    if bytes != [] {
      var tail := PercentBytes(bytes[1..]) + rest;
      calc {
        UnquotePlusBytes(PercentBytes(bytes) + rest);
        == { assert PercentBytes(bytes) + rest == PercentByte(bytes[0]) + tail; }
        UnquotePlusBytes(PercentByte(bytes[0]) + tail);
        == { UnquotePercentByte(bytes[0], tail); }
        [bytes[0]] + UnquotePlusBytes(tail);
        == { UnquotePercentBytes(bytes[1..], rest); }
        [bytes[0]] + (bytes[1..] + UnquotePlusBytes(rest));
        == { assert bytes == [bytes[0]] + bytes[1..]; }
        bytes + UnquotePlusBytes(rest);
      }
    } else {
      assert PercentBytes(bytes) + rest == rest;
    }
  }

  lemma UnquoteQuoteChar(c: char, rest: string)
    ensures UnquotePlusBytes(QuoteChar(c) + rest) == Utf8(c) + UnquotePlusBytes(rest)
  {
    if c == ' ' {
      assert (QuoteChar(c) + rest)[1..] == rest;
    } else if AlwaysSafe(c) {
      assert (QuoteChar(c) + rest)[1..] == rest;
    } else {
      UnquotePercentBytes(Utf8(c), rest);
    }
  }

  /** Round trip: undoing the quoting gives back the UTF-8 bytes of the
      original text. */
  lemma {:induction false} QuotePlusRoundTrip(s: string)
    ensures UnquotePlusBytes(QuotePlus(s)) == Utf8Of(s)
    decreases |s|
  {
    if s != [] {
      UnquoteQuoteChar(s[0], QuotePlus(s[1..]));
      QuotePlusRoundTrip(s[1..]);
    }
  }

  /** Distinct texts quote differently. */
  lemma QuotePlusInjective(s: string, t: string)
    requires QuotePlus(s) == QuotePlus(t)
    ensures s == t
  {
    QuotePlusRoundTrip(s);
    QuotePlusRoundTrip(t);
    Utf8OfInjective(s, t);
  }

  /** The characters `urlencode` can produce. */
  predicate QueryChar(c: char) {
    QuotedChar(c) || c == '=' || c == '&'
  }

  predicate QueryText(s: string) {
    forall i :: 0 <= i < |s| ==> QueryChar(s[i])
  }

  /** `urllib.parse.urlencode(params)`: `key=value` items, each side quoted
      with `quote_plus`, joined with `&`. */
  function UrlEncode(entries: seq<(string, string)>): (r: string)
    ensures QueryText(r)
    ensures entries != [] ==> r != [] && '=' in r
  {
    if entries == [] then []
    else
      var item := QuotePlus(entries[0].0) + "=" + QuotePlus(entries[0].1);
      assert item[|QuotePlus(entries[0].0)|] == '=';
      if |entries| == 1 then item else item + "&" + UrlEncode(entries[1..])
  }

  /** `s.split(c)` in Python: the pieces between the occurrences of `c`. */
  function SplitOn(s: string, c: char): (parts: seq<string>)
    ensures |parts| >= 1
    decreases |s|
  {
    if s == [] then [[]]
    else
      var rest := SplitOn(s[1..], c);
      if s[0] == c then [[]] + rest else [[s[0]] + rest[0]] + rest[1..]
  }

  /** The index of the first `c` in `s`, or `|s|` when there is none. */
  function IndexOf(s: string, c: char): (i: nat)
    ensures i <= |s|
    decreases |s|
  {
    if s == [] || s[0] == c then 0 else 1 + IndexOf(s[1..], c)
  }

  /** The key and value bytes of one `key=value` item, split at the first
      `=` and unquoted; an item with no `=` has an empty value. */
  function DecodeItem(item: string): (seq<int>, seq<int>) {
    var i := IndexOf(item, '=');
    (UnquotePlusBytes(item[..i]),
     if i < |item| then UnquotePlusBytes(item[i + 1..]) else [])
  }

  function DecodeItems(items: seq<string>): seq<(seq<int>, seq<int>)> {
    if items == [] then [] else [DecodeItem(items[0])] + DecodeItems(items[1..])
  }

  /** Reading a query string back: split at every `&`, then decode each
      item. The empty string holds no items. */
  function ParseQuery(q: string): seq<(seq<int>, seq<int>)> {
    if q == [] then [] else DecodeItems(SplitOn(q, '&'))
  }

  /** What `urlencode` is asked to encode, as bytes: each key and value in
      UTF-8, in item order. */
  function Utf8Pairs(entries: seq<(string, string)>): seq<(seq<int>, seq<int>)> {
    if entries == [] then []
    else [(Utf8Of(entries[0].0), Utf8Of(entries[0].1))] + Utf8Pairs(entries[1..])
  }

  lemma {:induction false} SplitNoSeparator(a: string, rest: string, c: char)
    requires c !in a
    ensures SplitOn(a + rest, c)
      == [a + SplitOn(rest, c)[0]] + SplitOn(rest, c)[1..]
    decreases |a|
  {
    if a != [] {
      var parts := SplitOn(rest, c);
      var inner := SplitOn(a[1..] + rest, c);
      assert (a + rest)[1..] == a[1..] + rest;
      assert a[0] != c && (a + rest)[0] == a[0];
      SplitNoSeparator(a[1..], rest, c);
      assert inner[0] == a[1..] + parts[0] && inner[1..] == parts[1..];
      assert [a[0]] + (a[1..] + parts[0]) == a + parts[0];
    } else {
      var parts := SplitOn(rest, c);
      assert a + rest == rest;
      assert a + parts[0] == parts[0];
      assert parts == [parts[0]] + parts[1..];
    }
  }

  lemma {:induction false} IndexOfAfter(a: string, rest: string, c: char)
    requires c !in a
    ensures IndexOf(a + [c] + rest, c) == |a|
    decreases |a|
  {
    if a != [] {
      assert (a + [c] + rest)[1..] == a[1..] + [c] + rest;
      IndexOfAfter(a[1..], rest, c);
    }
  }

  lemma QuotedHasNo(s: string, c: char)
    requires Quoted(s) && !QuotedChar(c)
    ensures c !in s
  {
  }

  /** One item of `urlencode` decodes to its key and value bytes. */
  lemma DecodeOneItem(k: string, v: string)
    ensures DecodeItem(QuotePlus(k) + "=" + QuotePlus(v)) == (Utf8Of(k), Utf8Of(v))
  {
    var qk, qv := QuotePlus(k), QuotePlus(v);
    var item := qk + "=" + qv;
    QuotedHasNo(qk, '=');
    IndexOfAfter(qk, qv, '=');
    assert item[..|qk|] == qk && item[|qk| + 1..] == qv;
    QuotePlusRoundTrip(k);
    QuotePlusRoundTrip(v);
  }

  /** The items of `urlencode`'s output, one `key=value` text per entry. */
  function ItemTexts(entries: seq<(string, string)>): seq<string> {
    if entries == [] then []
    else [QuotePlus(entries[0].0) + "=" + QuotePlus(entries[0].1)] + ItemTexts(entries[1..])
  }

  /** An item of `urlencode` holds no `&`. */
  lemma ItemHasNoAmp(k: string, v: string)
    ensures '&' !in QuotePlus(k) + "=" + QuotePlus(v)
  {
    var qk, qv := QuotePlus(k), QuotePlus(v);
    var item := qk + "=" + qv;
    QuotedHasNo(qk, '&');
    QuotedHasNo(qv, '&');
    forall i | 0 <= i < |item| ensures item[i] != '&' {
      if i < |qk| { assert item[i] == qk[i]; }
      else if i > |qk| { assert item[i] == qv[i - |qk| - 1]; }
    }
  }

  /** `urlencode` of two or more entries: the first item, `&`, and the
      encoding of the rest. */
  lemma UrlEncodeCons(entries: seq<(string, string)>)
    requires |entries| >= 2
    ensures UrlEncode(entries)
      == QuotePlus(entries[0].0) + "=" + QuotePlus(entries[0].1) + "&" + UrlEncode(entries[1..])
  {
  }

  /** Splitting an item without `&`, followed by `&` and more text. */
  lemma SplitItemThenRest(item: string, tail: string)
    requires '&' !in item
    ensures SplitOn(item + "&" + tail, '&') == [item] + SplitOn(tail, '&')
  {
    var amp: string := "&" + tail;
    SplitNoSeparator(item, amp, '&');
    assert amp[0] == '&' && amp[1..] == tail;
    assert SplitOn(amp, '&') == [[]] + SplitOn(tail, '&');
    assert item + [] == item;
    assert item + "&" + tail == item + amp;
  }

  lemma {:induction false} UrlEncodeSplits(entries: seq<(string, string)>)
    requires entries != []
    ensures SplitOn(UrlEncode(entries), '&') == ItemTexts(entries)
    decreases |entries|
  {
    var item := QuotePlus(entries[0].0) + "=" + QuotePlus(entries[0].1);
    ItemHasNoAmp(entries[0].0, entries[0].1);
    if |entries| == 1 {
      SplitNoSeparator(item, [], '&');
      assert item + [] == item;
    } else {
      UrlEncodeCons(entries);
      SplitItemThenRest(item, UrlEncode(entries[1..]));
      UrlEncodeSplits(entries[1..]);
    }
  }

  lemma {:induction false} DecodeItemTexts(entries: seq<(string, string)>)
    ensures DecodeItems(ItemTexts(entries)) == Utf8Pairs(entries)
    decreases |entries|
  {
    if entries != [] {
      DecodeOneItem(entries[0].0, entries[0].1);
      DecodeItemTexts(entries[1..]);
    }
  }

  /** Parse-back of `urlencode`: reading the query string gives one pair
      per entry, in order, holding the UTF-8 bytes of the key and of the
      value. */
  lemma UrlEncodeParses(entries: seq<(string, string)>)
    ensures ParseQuery(UrlEncode(entries)) == Utf8Pairs(entries)
  {
    if entries != [] {
      UrlEncodeSplits(entries);
      DecodeItemTexts(entries);
    }
  }

  lemma {:induction false} Utf8PairsInjective(a: seq<(string, string)>, b: seq<(string, string)>)
    requires Utf8Pairs(a) == Utf8Pairs(b)
    ensures a == b
    decreases |a|
  {
    if a != [] && b != [] {
      assert Utf8Pairs(a)[0] == Utf8Pairs(b)[0];
      Utf8OfInjective(a[0].0, b[0].0);
      Utf8OfInjective(a[0].1, b[0].1);
      assert Utf8Pairs(a)[1..] == Utf8Pairs(a[1..]);
      assert Utf8Pairs(b)[1..] == Utf8Pairs(b[1..]);
      Utf8PairsInjective(a[1..], b[1..]);
      assert a == [a[0]] + a[1..] && b == [b[0]] + b[1..];
    }
  }

  /** Distinct item lists give distinct query strings. */
  lemma UrlEncodeInjective(a: seq<(string, string)>, b: seq<(string, string)>)
    requires UrlEncode(a) == UrlEncode(b)
    ensures a == b
  {
    UrlEncodeParses(a);
    UrlEncodeParses(b);
    Utf8PairsInjective(a, b);
  }

  /** The append of utils.py lines 54-57: `&data` when the URL already has
      a `?`, `?data` otherwise; the URL is kept as a prefix. */
  function AppendQuery(url: string, data: string): (r: string)
    ensures |r| == |url| + 1 + |data|
    ensures r[..|url|] == url && r[|url| + 1..] == data
    ensures r[|url|] == '&' <==> '?' in url
    ensures r[|url|] == '?' <==> '?' !in url
    ensures '?' in r
  {
    (if '?' in url then url + "&" else url + "?") + data
  }

  /** Where `request.set_proxy` sends the request. */
  datatype Proxy = Proxy(host: string, scheme: string)

  /** The proxy split of utils.py lines 60-66: a proxy URL starting with
      `https://` or `http://` is split into host and scheme; anything else
      (including `""`) is ignored. */
  function ProxyOf(proxy: string): (r: Option<Proxy>)
    ensures r.Some? <==> StartsWith(proxy, "https://") || StartsWith(proxy, "http://")
    ensures r.Some? ==> r.value.scheme + "://" + r.value.host == proxy
    ensures r.Some? ==> (r.value.scheme == "https" <==> StartsWith(proxy, "https://"))
    ensures r.Some? ==> r.value.scheme == "https" || r.value.scheme == "http"
  {
    if proxy != [] && (StartsWith(proxy, "https://") || StartsWith(proxy, "http://")) then
      if StartsWith(proxy, "https://") then
        assert proxy == proxy[..8] + proxy[8..];
        Some(Proxy(proxy[8..], "https"))
      else
        assert proxy == proxy[..7] + proxy[7..];
        Some(Proxy(proxy[7..], "http"))
    else None
  }

}

=== FILE: text.dfy ===
/**
 * The pieces of Python's `str` that utils.py relies on: `isspace`, `strip`,
 * `find`, `in` and `startswith`, over strings of Unicode scalar values.
 */
module Text {

  /** Python's `str.isspace()` for one character: the code points of
      Unicode bidirectional class WS, B or S, or general category Zs. */
  predicate IsSpace(c: char) {
    var n := c as int;
    || (0x09 <= n <= 0x0D)
    || (0x1C <= n <= 0x20)
    || n == 0x85
    || n == 0xA0
    || n == 0x1680
    || (0x2000 <= n <= 0x200A)
    || n == 0x2028
    || n == 0x2029
    || n == 0x202F
    || n == 0x205F
    || n == 0x3000
  }

  predicate AllSpace(s: string) {
    forall i :: 0 <= i < |s| ==> IsSpace(s[i])
  }

  /** Neither end of `s` is whitespace. */
  predicate IsStripped(s: string) {
    s == [] || (!IsSpace(s[0]) && !IsSpace(s[|s| - 1]))
  }

  /** Characters `lo` up to (not including) `hi` of `s` are whitespace. */
  predicate SpaceBetween(s: string, lo: int, hi: int)
    requires 0 <= lo && hi <= |s|
  {
    forall k :: lo <= k < hi ==> IsSpace(s[k])
  }

  /** The first non-whitespace index at or after `from`, or `|s|`. */
  function SkipSpace(s: string, from: nat): (i: nat)
    requires from <= |s|
    ensures from <= i <= |s| && SpaceBetween(s, from, i)
    ensures i < |s| ==> !IsSpace(s[i])
    decreases |s| - from
  {
    if from < |s| && IsSpace(s[from]) then SkipSpace(s, from + 1) else from
  }

  /** The end of `s[lo..hi]` once its trailing whitespace is dropped. */
  function SkipSpaceBack(s: string, lo: nat, hi: nat): (j: nat)
    requires lo <= hi <= |s|
    ensures lo <= j <= hi && SpaceBetween(s, j, hi)
    ensures lo < j ==> !IsSpace(s[j - 1])
    decreases hi
  {
    if lo < hi && IsSpace(s[hi - 1]) then SkipSpaceBack(s, lo, hi - 1) else hi
  }

  /** Number of whitespace characters `strip` removes from the front of `s`. */
  function LeadingSpace(s: string): (n: nat)
    ensures n <= |s| && SpaceBetween(s, 0, n)
    ensures n < |s| ==> !IsSpace(s[n])
  {
    SkipSpace(s, 0)
  }

  /** Python's `str.strip()` with no argument: the result sits in `s` after
      `LeadingSpace(s)` characters, only whitespace surrounds it, and it has
      no whitespace at its ends. */
  function Strip(s: string): (r: string)
    ensures var i := LeadingSpace(s);
      && i + |r| <= |s| && s[i..i + |r|] == r
      && SpaceBetween(s, 0, i) && SpaceBetween(s, i + |r|, |s|)
    ensures IsStripped(r)
    ensures r == [] <==> AllSpace(s)
  {
    var i := SkipSpace(s, 0);
    var j := SkipSpaceBack(s, i, |s|);
    assert j == i ==> AllSpace(s);
    s[i..j]
  }

  /** A string whose ends are not whitespace is its own stripped form. */
  lemma StripStripped(s: string)
    requires IsStripped(s)
    ensures Strip(s) == s
  {
  }

  /** `sub` occurs in `s` starting at index `i`. */
  predicate OccursAt(s: string, sub: string, i: int) {
    0 <= i && i + |sub| <= |s| && s[i..i + |sub|] == sub
  }

  /** Python's `s.find(sub, start)` for a non-negative `start`: the least
      index at or after `start` where `sub` occurs, or -1 when there is none. */
  function Find(s: string, sub: string, start: nat): (r: int)
    ensures r == -1 || (start <= r && OccursAt(s, sub, r))
    ensures r == -1 ==> forall i :: start <= i ==> !OccursAt(s, sub, i)
    ensures r != -1 ==> forall i :: start <= i < r ==> !OccursAt(s, sub, i)
    decreases |s| - start
  {
    if start + |sub| > |s| then -1
    else if s[start..start + |sub|] == sub then start
    else Find(s, sub, start + 1)
  }

  /** Python's `sub in s` for strings. */
  predicate Contains(s: string, sub: string) {
    exists i :: 0 <= i <= |s| - |sub| && OccursAt(s, sub, i)
  }

  /** `sub in s` and `s.find(sub) != -1` agree. */
  lemma ContainsFind(s: string, sub: string)
    ensures Contains(s, sub) <==> Find(s, sub, 0) != -1
  {
    var r := Find(s, sub, 0);
    if r != -1 {
      assert OccursAt(s, sub, r);
    }
  }

  /** Python's `s.startswith(p)`. */
  predicate StartsWith(s: string, p: string) {
    |p| <= |s| && s[..|p|] == p
  }

  /** For a one-character needle, `find` returns the first position of that
      character, and -1 exactly when the character is absent. */
  lemma FindChar(s: string, c: char)
    ensures Find(s, [c], 0) == -1 <==> c !in s
    ensures Find(s, [c], 0) != -1 ==> s[Find(s, [c], 0)] == c && c !in s[..Find(s, [c], 0)]
  {
    var r := Find(s, [c], 0);
    if r == -1 {
      forall i | 0 <= i < |s| ensures s[i] != c {
        assert !OccursAt(s, [c], i);
        assert s[i..i + 1] == [s[i]];
      }
    } else {
      assert s[r..r + 1] == [s[r]];
      forall i | 0 <= i < r ensures s[..r][i] != c {
        assert !OccursAt(s, [c], i);
        assert s[i..i + 1] == [s[i]];
      }
    }
  }

}

=== FILE: wrappers.dfy ===
/** Optional values: Python's `None` versus a present value. */
module Wrappers {

  datatype Option<+T> = None | Some(value: T)

}
